=== FILE: README.md ===
# Half-hourly PV + battery dispatch, modelled in Dafny

The repository simulates a site with solar panels, a battery and a grid
connection over a series of half-hour intervals. Each interval has an hour
of day, a load in kW, a solar output in kW and a tariff rate per kWh.
Three dispatch engines walk the series from an empty battery and record the
state of charge (SoC), the grid import and export, and the cost of every
interval:

- **scenario 1, fixed window** (`simulate_scenario_1`):
  - solar charges the battery first, with no loss;
  - leftover solar serves the load;
  - the battery may discharge only from 17:00 to 23:00, losing the whole
    round-trip efficiency on the way out;
  - the grid covers the rest.
- **scenario 2, price driven** (`simulate_scenario_2`): it charges and
  serves the load like scenario 1, but:
  - it discharges whenever the rate is at least 0.15;
  - at rates of at most 0.08 it tops the battery up from the grid, unless
    `AllowGridCharge` is false.
- **load first** (`simulate_battery_dispatch`):
  - solar serves the load first;
  - only the surplus charges the battery, stored at a fixed factor of 0.95;
  - the battery covers every deficit, at any hour and any rate;
  - it refuses a frame that lacks a value column.

The scenarios are measured against two comparators: a grid-only baseline
(`create_baseline_df`) and solar without a battery (`create_solar_only_df`).
Rates come from the time-of-use table: 0.25 from 17:00 to 19:00, 0.15 from
08:00 to 17:00 and from 19:00 to 23:00, and 0.08 otherwise. Phase II runs
everything on the sum of two sites. The synthetic data generator builds a
year of load:
- it splits an annual target into days;
- it scales weekends down;
- it rescales each day's profile to its target.

`pv_battery_phaseI_phaseII.py` and `fullanalysis.py` each hold a baseline,
solar-only, scenario 1 and scenario 2 function, and the two copies behave
identically. Their identifiers, comments and line numbers differ, and where
`pv_battery_phaseI_phaseII.py` leaves the import and cost cells of the
solar-only row at their initial 0.0 with `pass`, `fullanalysis.py` writes
both explicitly. One model
covers both, and the table below cites whichever copy reads more directly.

## Structure

- `results.dfy` has `Option` and `Result`.
- `totals.dfy` has column totals (`Sum`) and their algebra: bounds,
  splitting, pointwise addition and scaling.
- `tariff.dfy` has the rate table, as a function and as a band schedule.
- `energy.dfy` has:
  - the data: `Interval`, `Battery`, the output `Row` and per-interval `Energies` in kWh;
  - the invariants every row satisfies: `Balanced` (energy in equals energy
    out), `Billed` (cost = import × rate) and `NonNegativeFlows`.
- `dispatch.dfy` has the per-interval step of all three engines, as one
  function parameterised by a `Policy`.
- `step_properties.dfy` has what one step guarantees: its composition from
  the three phases, SoC bounds and policy gating.
- `simulator.dfy` has `Run`, the fold of the step over the series, and the
  same guarantees lifted to every row.
- `config.dfy` has the parameter dictionary (a field per key, absent or
  present), the required keys and columns, and the defaults.
- `engines.dfy` has the three entry points, with their error paths and
  their whole-run invariants.
- `baseline.dfy` has the comparators, the phase-II aggregation, and how
  they compare with each other and with the engines.
- `synthetic.dfy` has the deterministic arithmetic of the generator.
- `examples.dfy` has single intervals worked by hand, and three families of
  intervals stated for every battery. Each pins down a behaviour of the code
  that the general lemmas allow but a reader might not expect.

Quantities are `real`. The engines index the parameter dictionary in the
order capacity, charge limit, discharge limit, efficiency. A missing key
therefore surfaces as `MissingKey` naming the first absent one.
`simulate_battery_dispatch` checks the columns in the order `Load_kW`,
`Solar_kW`, `TariffRate` and fails with `MissingColumn` on the first absent
one. The code validates nothing else. The bound lemmas therefore take
physical sanity as a precondition (`ValidBattery`, `ValidInterval`):
- a positive efficiency;
- non-negative limits, capacity and interval length;
- non-negative load and solar.

The step functions themselves are total.

## Model

| member | source | states |
|---|---|---|
| Totals.SumAppend | pv_battery_phaseI_phaseII.py:231-241 | The total of a column split in two pieces is the sum of the pieces' totals. |
| Totals.SumBoundsEntries | pv_battery_phaseI_phaseII.py:231-241 | A column of non-negative entries has a non-negative total that is no smaller than any entry. |
| Tariff.Rate | pv_battery_phaseI_phaseII.py:33-39 | The rate is 0.25 exactly in hours 17-18, 0.15 exactly in hours 8-16 and 19-22, and 0.08 exactly in hours 0-7 and 23 (each an if-and-only-if). |
| Tariff.RateFollowsSchedule | synthaticdatageneration.py:81-88 | The band table covers every hour 0..23, and the rate function charges exactly the rate of the band an hour falls in. |
| Tariff.DischargeThresholdHours | fullanalysis.py:33-39 | A rate of at least 0.15 (the scenario-2 discharge threshold) occurs exactly in hours 8..22. |
| Tariff.GridChargeThresholdHours | fullanalysis.py:233 | A rate of at most 0.08 (the grid-charge threshold) occurs exactly in hours 23 and 0..7, and no hour meets both thresholds. |
| Energy.ToEnergies | pv_battery_phaseI_phaseII.py:99-107 | kW figures become kWh over the interval. They are non-negative for a physically valid battery and interval. |
| Dispatch.MayDischarge | pv_battery_phaseI_phaseII.py:123-129 | Scenario 1 opens the discharge gate from 17:00 to 19:00 always, and from 19:00 to 23:00 only with a positive SoC. Scenario 2 opens it at rates of at least 0.15 with a positive SoC, which under the standard tariff is exactly 08:00-23:00. The load-first gate is always open. |
| Dispatch.MayGridCharge | pv_battery_phaseI_phaseII.py:213 | Grid top-up fires only in scenario 2, with AllowGridCharge set and soc < cap. Under the standard tariff it fires exactly in the night hours (before 08:00 and at 23:00). In an interval where it fires, the discharge gate is closed at every SoC. |
| Dispatch.DischargeFor | fullanalysis.py:146-160 | The battery delivers min(unmet, min(soc, limit) × eff), drawing delivered / eff from the SoC. When it falls short it draws exactly min(soc, limit). It never draws more than that, and with eff > 0 no flow is negative. |
| Dispatch.ServeLoad | pv_battery_phaseI_phaseII.py:116-147 | Leftover solar, battery output and import together cover load plus export. With a surplus the rest is exported and nothing is drawn or imported. With a deficit and the gate open (and SoC > 0) the battery draws and delivers exactly the DischargeFor amounts and the grid covers the rest. With the gate closed the whole deficit is imported. Import is billed at the rate, and import and export are never both nonzero. |
| Dispatch.GridTopUp | pv_battery_phaseI_phaseII.py:212-218 | Grid charge is min(cap − soc, max_c_kWh) exactly when the flag is set, the rate is ≤ 0.08 and soc < cap, and 0 otherwise. It raises the SoC and the import by the same amount and the cost by that amount × rate. It keeps the SoC ≤ cap and leaves every other flow alone. |
| Dispatch.ChargeFirstKwh | pv_battery_phaseI_phaseII.py:110-147 | Solar charge is min(solar, max_c_kWh, cap − soc), taken before the load is served. The leftover solar then meets the load: a surplus is exported; a deficit is served by exactly the DischargeFor amounts when the gate is open and otherwise imported. The grid charge is the top-up on the SoC that is left. The interval balances and is billed, and the SoC changes by charge + grid charge − drawn. |
| Dispatch.LoadFirstKwh | simulation2.py:69-146 | With a surplus, the charge is min(surplus, max_charge_kWh, max_soc − soc), the SoC becomes min(soc + 0.95 × charge, max_soc), the rest is exported and nothing is drawn. With a deficit, nothing is charged or exported and the battery draws and delivers exactly the DischargeFor amounts, the grid covering the rest. The interval balances and is billed and never grid-charges. |
| Dispatch.Step | pv_battery_phaseI_phaseII.py:104-149 | One interval of the selected engine on the kW × dt energies: the load-first step for the load-first engine, the charge-first step otherwise. Every row is balanced and billed. |
| StepProperties.ChargeFirstComposition | pv_battery_phaseI_phaseII.py:183-218 | A scenario 1 or 2 interval is solar charging by min(solar, max_c_kWh, cap − soc), then serving the load from the charged SoC, then the grid top-up, in that order. |
| StepProperties.ServeLoadInRange | pv_battery_phaseI_phaseII.py:129-139 | Serving the load keeps the SoC in [0, SoC after charging], makes no flow negative, and imports at most the load. |
| StepProperties.ChargeFirstInRange | fullanalysis.py:124-239 | A scenario 1 or 2 interval starting in [0, cap] ends in [0, cap] with no negative flow. Without grid charging it imports at most the load. |
| StepProperties.LoadFirstInRange | simulation2.py:77-136 | A load-first interval starting in [0, max_soc] ends in [0, max_soc] with no negative flow, and imports at most the load. |
| StepProperties.StepKeepsSocInRange | pv_battery_phaseI_phaseII.py:101-149 | From a SoC between 0 and the engine's ceiling (capacity, or max_soc for load first), one step ends within it again, with no negative flow. Without grid top-up it imports no more than the interval's load. |
| StepProperties.FixedWindowGating | pv_battery_phaseI_phaseII.py:123-129 | Scenario 1 discharges only when 17 ≤ hour < 23. It never grid-charges and never imports and exports together. Outside the window the SoC never falls within an interval. |
| StepProperties.PriceDrivenGating | fullanalysis.py:214-233 | Scenario 2 discharges only at rates ≥ 0.15. It grid-charges only with the flag set and at rates ≤ 0.08, so never both in one interval. |
| StepProperties.LoadFirstExclusive | simulation2.py:70-146 | Battery_Charge_kWh and Battery_Discharge_kWh are never both nonzero, nor are Grid_Import and Grid_Export. The battery never charges from the grid. |
| Simulator.Run | simulation2.py:56-149 | One row per interval, in order. Each row is the step applied from the SoC the previous row recorded, or from the starting SoC for the first. Every row is balanced and billed. |
| Simulator.RunKeepsSocInRange | pv_battery_phaseI_phaseII.py:101-149 | From a starting SoC in range, every row's SoC stays between 0 and the ceiling with no negative flow. Without grid top-up every row imports at most its load. |
| Simulator.FixedWindowRunGating | fullanalysis.py:140-164 | Over a whole scenario-1 run, discharge happens only in 17:00-23:00, with no grid charging and no simultaneous import and export. Outside the window no row ends below the SoC it started from. |
| Simulator.PriceDrivenRunGating | pv_battery_phaseI_phaseII.py:194-218 | Over a whole scenario-2 run, every row's discharge and grid charge obey the thresholds, and no row does both. |
| Simulator.LoadFirstRunExclusive | simulation2.py:59-149 | Over a whole load-first run no row charges and discharges together, none imports and exports together, and none charges from the grid. |
| Config.FirstMissing | simulation2.py:28-31 | Returns nothing exactly when every name is present. Otherwise it returns the first absent name in checking order. |
| Config.ReadRequired | pv_battery_phaseI_phaseII.py:166-170 | Succeeds exactly when the four indexed keys are present, and otherwise reports the first missing one. On success it uses the given values, with AllowGridCharge defaulting to true and the capacity as the SoC ceiling. |
| Config.ReadWithDefaults | simulation2.py:44-49 | Each of the six keys the engine reads is used as given when present and otherwise takes its default: capacity 16000, limits 8000 kW, eff 0.9, MinSoC 0. An absent MaxSoC follows the capacity in use. |
| Config.ReadersAgree | simulation2.py:44-49 | When the four required keys are given and neither SoC bound is, the load-first reader and the scenario 1/2 reader produce the same battery. |
| Config.ReadersDifferOnMaxSoc | simulation2.py:49 | A given MaxSoC_kWh is the load-first ceiling, while scenarios 1 and 2 keep the capacity as theirs. |
| Engines.SimulateScenario1 | pv_battery_phaseI_phaseII.py:82-151 | Fails, with a missing key, exactly when a required key is absent. Otherwise it gives one row per interval: each is the fixed-window step from the SoC the previous row left (0 for the first), and each is balanced and billed. |
| Engines.SimulateScenario2 | fullanalysis.py:173-243 | Fails, with a missing key, exactly when a required key is absent. Otherwise each row is the price-driven step from the previous row's SoC (0 for the first), balanced and billed, with grid charging on unless AllowGridCharge is given as false. |
| Engines.SimulateBatteryDispatch | simulation2.py:24-151 | Fails exactly when a value column is missing, naming the first missing one and processing no interval. Otherwise each row is the load-first step, with the defaulted parameters, from the previous row's SoC (0 for the first), balanced and billed. |
| Engines.EngineCeilings | simulation2.py:44-78 | Scenarios 1 and 2 charge up to the given capacity. The load-first engine charges up to MaxSoC_kWh when given, and otherwise up to the capacity it uses (16000 by default). |
| Engines.Scenario1Invariants | pv_battery_phaseI_phaseII.py:101-147 | With valid parameters, every scenario-1 row keeps 0 ≤ SoC ≤ capacity and imports at most its load, and discharge happens only in 17:00-23:00. |
| Engines.Scenario2Invariants | fullanalysis.py:203-239 | With valid parameters, every scenario-2 row keeps 0 ≤ SoC ≤ capacity, grid top-up included, and no row both discharges and grid-charges. |
| Engines.BatteryDispatchInvariants | simulation2.py:44-136 | With all columns present and valid parameters, every row keeps 0 ≤ SoC ≤ MaxSoC (the floor is 0, not MinSoC), every flow is non-negative, and no row charges and discharges together. |
| Baseline.BaselineRow | pv_battery_phaseI_phaseII.py:51-56 | Solar is zeroed, the import is Load_kW × 0.5 (the load energy of a half hour), and the cost is import × rate. |
| Baseline.CreateBaseline | pv_battery_phaseI_phaseII.py:47-57 | One output row per input row, each the baseline row of its input. |
| Baseline.CreateSolarOnly | pv_battery_phaseI_phaseII.py:59-80 | One output row per input row, each the solar-only row of its input. |
| Baseline.SolarOnlyRow | fullanalysis.py:75-88 | The import is non-negative, together with solar it covers the load, and it is either 0 or exactly the shortfall. The cost is import × rate and the input row is unchanged. |
| Baseline.SolarOnlyWithoutSolarIsBaseline | fullanalysis.py:47-90 | With no solar, the solar-only import and cost columns equal the baseline's. |
| Baseline.SolarOnlyNeverExceedsBaseline | fullanalysis.py:59-88 | With non-negative load, solar and rates, the solar-only import never exceeds the baseline's, row by row, and neither the total import nor the total cost does. |
| Baseline.BatteryNeverExceedsBaseline | pv_battery_phaseI_phaseII.py:227-241 | On half-hour intervals from SoC 0 without grid charging, every engine's import is at most the baseline's in every row. Its total import and total cost are at most the baseline totals. |
| Baseline.BatteryTotalsNonNegative | pv_battery_phaseI_phaseII.py:227-241 | At non-negative rates every engine's total import and total cost are non-negative, and no interval's import or cost exceeds its total. |
| Baseline.BilledColumnsBounded | pv_battery_phaseI_phaseII.py:231-241 | Rows with non-negative flows, billed at non-negative rates, have non-negative import and cost totals, and each row's import and cost is at most its total. |
| Baseline.Aggregate | pv_battery_phaseI_phaseII.py:307-309 | The phase-II row sums the two sites' load and solar and keeps the first site's hour and rate. |
| Baseline.BaselineIsAdditive | pv_battery_phaseI_phaseII.py:307-314 | The aggregated site's baseline import total is the sum of the two sites' totals. So is its cost total when the sites pay the same rates. |
| Baseline.SolarOnlyPoolingHelps | pv_battery_phaseI_phaseII.py:307-315 | Pooling the sites never raises the solar-only import, row by row or in total. |
| Synthetic.IntervalCount | synthaticdatageneration.py:20-21 | The count `total_intervals` is zero exactly when there are no days or no intervals per day. Otherwise it is at least the number of days and at least the number of intervals per day. |
| Synthetic.DailyLoadKwh | synthaticdatageneration.py:40-42 | Fails exactly for zero days. Otherwise the daily kWh target times the number of days is the annual MWh target × 1000. |
| Synthetic.WeekendFactor | synthaticdatageneration.py:55-58 | Monday to Friday (weekday 0-4) count in full; Saturday and Sunday count by the weekend factor. |
| Synthetic.WeekLoadTotal | synthaticdatageneration.py:52-73 | Rescaling the seven day profiles of a week to the daily target and their day factors gives a week total of daily_load_kwh × (5 + 2 × weekend_factor). |
| Synthetic.WeekFactorTotal | synthaticdatageneration.py:52-58 | Over Monday..Sunday the day factors total 5 + 2 × weekend_factor. |
| Synthetic.Rescale | synthaticdatageneration.py:70-73 | The rescaled day is the profile multiplied through by one common factor, so its shape is kept, and it sums to daily_load_kwh × w_factor. |
| Synthetic.RescaleKeepsPositive | synthaticdatageneration.py:64-73 | A positive profile has a positive sum, so the rescale is defined. Rescaled to a positive target with a positive day factor, it stays positive in every entry. |
| Synthetic.FillDays | synthaticdatageneration.py:51-77 | The load column has days × intervals-per-day entries, and day d's profile occupies exactly the rows from d × intervals-per-day onward. |
| Examples.FixedWindowChargesAndDischargesTogether | pv_battery_phaseI_phaseII.py:110-139 | At 17:00 with solar below load, scenario 1 charges 10 kWh from solar and discharges the same 10 kWh in one interval. It imports 41 kWh where solar-only imports 40. |
| Examples.FixedWindowPeakDischarge | pv_battery_phaseI_phaseII.py:123-143 | For any battery: at 17:00-19:00 with no solar, when the stored energy is within the discharge limit but soc × eff falls short of the need, scenario 1 empties the battery, delivers soc × eff, and imports the rest of the load. |
| Examples.PeakShortfall | pv_battery_phaseI_phaseII.py:123-143 | The same interval in kWh, stated on the charge-first step. |
| Examples.FixedWindowHoldsOutsideWindow | pv_battery_phaseI_phaseII.py:123-147 | At 10:00 a charged battery is not touched: the whole load is imported and the SoC is kept. |
| Examples.NightSolarBeyondLimit | fullanalysis.py:202-239 | In kWh: in a night interval with no load and solar beyond the charge limit, an empty battery takes the limit from solar and exports the rest, then buys the limit again from the grid. |
| Examples.PriceDrivenImportsAndExportsTogether | fullanalysis.py:202-239 | For any battery that may grid-charge, with room for two intervals' charge: in a night interval with no load and solar beyond the charge limit, scenario 2 both imports and exports, and the battery gains twice its per-interval charge limit. |
| Examples.PriceDrivenGridChargeCostsMoreThanBaseline | pv_battery_phaseI_phaseII.py:212-218 | For any battery that may grid-charge: from empty, in a night interval with no load and no solar, scenario 2 imports min(capacity, max charge) at the night rate and pays for it, while the baseline pays nothing. |
| Examples.LoadFirstStoresAtFixedFactor | simulation2.py:70-99 | A 50 kWh surplus charges 25 kWh, stored as 23.75 kWh (factor 0.95), and the other 25 kWh is exported. |
| Examples.LoadFirstIgnoresMinSoc | simulation2.py:108-143 | With MinSoC 20 and 30 kWh stored, a 50 kWh deficit draws the full 25 kWh limit and leaves 5 kWh, below MinSoC. |

## Left out

- The default interval length `dt_hours=0.5` of the engines (`pv_battery_phaseI_phaseII.py:82`, `:153`, `fullanalysis.py:95`, `:173`, `simulation2.py:4`) is not a default here: `dt` is a required argument of `Run` and of every engine, so a caller that relied on the default passes 0.5.
- `combined_code.py` is not modelled: it reads CSV and Excel files and plots them, and has no dispatch logic.
- Config.ReadWithDefaults: `simulate_battery_dispatch` never reads `AllowGridCharge` (`simulation2.py:44-49` reads six keys). The model fills the field with the scenario 2 default, true, only so that both readers build the same `Battery`; the load-first step never consults it.
- Synthetic.FillDays: the generator completes only for at least one day and exactly 48 intervals per day, because its base profile always has 48 points (`synthaticdatageneration.py:32`). Zero days divides by zero (`:40`), zero intervals per day indexes an empty date range (`:53`), and any other count fails to broadcast the profile against the noise (`:68`) or to assign it into the day's slice (`:76`). `FillDays` and `IntervalCount` accept any count and do not model these failures.
- Random numbers, the Gaussian solar shape (`exp`), the seasonal sine and `np.interp` are not modelled. Their outputs reach the model as arbitrary inputs: interval loads and solar, the day profiles of `FillDays`, and the `profile` and `dayFactor` of `Rescale`.
- Pandas machinery is reduced to plain values:
  - a timestamp is reduced to its hour;
  - a data frame is a sequence of `Interval`s (plus its column-name set, for the load-first engine);
  - the copy the engines make is implicit, because values are immutable.
- Real arithmetic replaces IEEE floating point, so rounding is not modelled.
- Reporting is not modelled: the printing in `cost_benefit_analysis`, the `__main__` blocks, Excel writing and plots. Only the column totals appear, as `Totals.Sum`.
- `phase_I_simulation` and `phase_II_simulation` are not modelled as wholes: they are calls to the modelled functions on generated data. Only the phase-II sum of two sites (`Baseline.Aggregate`) is modelled.
- In `create_synthetic_site_data`, `create_synthetic_data` and `generate_synthetic_dataset`, only the tariff table, the row count, the daily target, the weekend factor, rescaling and filling are modelled. The constant battery columns the generator writes (`synthaticdatageneration.py:95-97`) carry no logic and are omitted.
- Scenarios 1 and 2 raise `KeyError` when they index a missing `Load_kW`, `Solar_kW` or `TariffRate` column. This is not modelled: their input is a typed sequence of intervals. Only the load-first engine's explicit column check is modelled.
- Synthetic.Rescale requires a non-zero profile sum. The source would divide by zero and give `inf`/`nan`, which reals cannot represent. `RescaleKeepsPositive` shows that a positive profile always meets the requirement.
- Baseline.BaselineIsAdditive states cost additivity only for sites on the same rates. Phase II keeps the first site's rate column, so with different rates the aggregated cost is not the sum.
- Baseline.BatteryNeverExceedsBaseline excludes scenario 2 with grid charging on. `Examples.PriceDrivenGridChargeCostsMoreThanBaseline` shows grid charging can cost more than the baseline.
- Examples.LoadFirstIgnoresMinSoc is stated on the kWh-level step `LoadFirstKwh`, with the energies of a half-hour interval given directly.
- Examples.NightSolarBeyondLimit is stated on the kWh-level step `ChargeFirstKwh`; `PriceDrivenImportsAndExportsTogether` lifts it to `Step`.
- The calendar is not modelled. The generator takes each day's weekday from its first timestamp (`synthaticdatageneration.py:53-55`); here the weekday is an input of `WeekendFactor`, and `WeekLoadTotal` assumes the seven days of a week run Monday to Sunday.
- The code does not do what a reader might expect:
  - discharge ignores `MinSoC_kWh`, which is read but never used;
  - load-first charging is stored at a fixed 0.95, not at an efficiency derived from the round-trip figure;
  - no engine rejects a non-positive capacity or efficiency.

=== FILE: baseline.dfy ===
/** The two comparators every scenario is measured against — grid only, and
    solar without a battery — and the phase-II aggregation of two sites. */
module Baseline {
  import opened Totals
  import opened Energy
  import opened Dispatch
  import opened Simulator

  /** The comparators hard-code half-hour intervals. */
  const HalfHour: real := 0.5

  /** A comparator's output row: the input row as the comparator leaves it,
      its `Grid_Import_kWh` and its `Cost`. */
  datatype Metered = Metered(interval: Interval, imported: real, cost: real)

  /** `x * t <= y * t` for a non-negative rate `t`. */
  lemma ScaleMonotone(x: real, y: real, t: real)
    requires x <= y && t >= 0.0
    ensures x * t <= y * t
  {
    assert y * t - x * t == (y - x) * t;
    ProductNonNegative(y - x, t);
  }

  /** One row of `create_baseline_df`: solar zeroed, the whole load imported. */
  function BaselineRow(i: Interval): (m: Metered)
    ensures m.interval == i.(solarKw := 0.0)
    ensures m.imported == i.loadKw * HalfHour
    ensures m.cost == m.imported * i.tariff
  {
    var imported := i.loadKw * HalfHour;
    Metered(i.(solarKw := 0.0), imported, imported * i.tariff)
  }

  /** One row of `create_solar_only_df`: the row unchanged, importing only
      the shortfall of solar against load. */
  function SolarOnlyRow(i: Interval): (m: Metered)
    ensures m.interval == i
    ensures m.imported >= 0.0
    ensures m.imported + i.solarKw * HalfHour >= i.loadKw * HalfHour
    ensures m.imported == 0.0 || m.imported + i.solarKw * HalfHour == i.loadKw * HalfHour
    ensures m.cost == m.imported * i.tariff
  {
    var loadKwh := i.loadKw * HalfHour;
    var solarKwh := i.solarKw * HalfHour;
    if solarKwh >= loadKwh then Metered(i, 0.0, 0.0)
    else
      var shortfall := loadKwh - solarKwh;
      Metered(i, shortfall, shortfall * i.tariff)
  }

  /** `create_baseline_df` over a series. */
  function CreateBaseline(xs: seq<Interval>): (ms: seq<Metered>)
    ensures |ms| == |xs|
    ensures forall k :: 0 <= k < |xs| ==> ms[k] == BaselineRow(xs[k])
  {
    seq(|xs|, k requires 0 <= k < |xs| => BaselineRow(xs[k]))
  }

  /** `create_solar_only_df` over a series. */
  function CreateSolarOnly(xs: seq<Interval>): (ms: seq<Metered>)
    ensures |ms| == |xs|
    ensures forall k :: 0 <= k < |xs| ==> ms[k] == SolarOnlyRow(xs[k])
  {
    seq(|xs|, k requires 0 <= k < |xs| => SolarOnlyRow(xs[k]))
  }

  /** The `Grid_Import_kWh` column of a comparator output. */
  function MeteredImports(ms: seq<Metered>): (s: seq<real>)
    ensures |s| == |ms|
    ensures forall k :: 0 <= k < |ms| ==> s[k] == ms[k].imported
  {
    seq(|ms|, k requires 0 <= k < |ms| => ms[k].imported)
  }

  /** The `Cost` column of a comparator output. */
  function MeteredCosts(ms: seq<Metered>): (s: seq<real>)
    ensures |s| == |ms|
    ensures forall k :: 0 <= k < |ms| ==> s[k] == ms[k].cost
  {
    seq(|ms|, k requires 0 <= k < |ms| => ms[k].cost)
  }

  /** With no solar the solar-only comparator is the baseline: same import
      and cost in every row. */
  lemma SolarOnlyWithoutSolarIsBaseline(xs: seq<Interval>)
    requires forall k :: 0 <= k < |xs| ==> xs[k].solarKw == 0.0 && xs[k].loadKw >= 0.0
    ensures MeteredImports(CreateSolarOnly(xs)) == MeteredImports(CreateBaseline(xs))
    ensures MeteredCosts(CreateSolarOnly(xs)) == MeteredCosts(CreateBaseline(xs))
  {
    forall k | 0 <= k < |xs|
      ensures CreateSolarOnly(xs)[k] == CreateBaseline(xs)[k]
    {
      assert xs[k].(solarKw := 0.0) == xs[k];
    }
  }

  /** Solar never raises an interval's import or cost above the baseline's,
      so neither does it raise the totals. */
  lemma SolarOnlyNeverExceedsBaseline(xs: seq<Interval>)
    requires AllValid(xs) && TariffsNonNegative(xs)
    ensures forall k :: 0 <= k < |xs| ==> CreateSolarOnly(xs)[k].imported <= CreateBaseline(xs)[k].imported
    ensures Sum(MeteredImports(CreateSolarOnly(xs))) <= Sum(MeteredImports(CreateBaseline(xs)))
    ensures Sum(MeteredCosts(CreateSolarOnly(xs))) <= Sum(MeteredCosts(CreateBaseline(xs)))
  {
    var s, base := CreateSolarOnly(xs), CreateBaseline(xs);
    forall k | 0 <= k < |xs|
      ensures s[k].imported <= base[k].imported
      ensures s[k].cost <= base[k].cost
    {
      assert ValidInterval(xs[k]) && xs[k].tariff >= 0.0;
      ScaleMonotone(s[k].imported, base[k].imported, xs[k].tariff);
    }
    SumMonotone(MeteredImports(s), MeteredImports(base));
    SumMonotone(MeteredCosts(s), MeteredCosts(base));
  }

  /** A billed row importing at most its interval's half-hour load pays no
      more than the baseline row. */
  lemma BilledBelowBaseline(r: Row, i: Interval)
    requires Billed(i, r) && i.tariff >= 0.0
    requires r.imported <= i.loadKw * HalfHour
    ensures r.imported <= BaselineRow(i).imported && r.cost <= BaselineRow(i).cost
  {
    ScaleMonotone(r.imported, i.loadKw * HalfHour, i.tariff);
  }

  /** With half-hour intervals, a starting SoC of 0 and no grid charging,
      each battery engine imports no more than the baseline in every interval
      and in total, and costs no more in total. */
  lemma BatteryNeverExceedsBaseline(policy: Policy, b: Battery, xs: seq<Interval>)
    requires ValidBattery(b, HalfHour) && AllValid(xs) && TariffsNonNegative(xs)
    requires !(policy.PriceDriven? && b.allowGridCharge)
    ensures forall k :: 0 <= k < |xs| ==> Run(policy, b, HalfHour, 0.0, xs)[k].imported <= CreateBaseline(xs)[k].imported
    ensures Sum(Imports(Run(policy, b, HalfHour, 0.0, xs))) <= Sum(MeteredImports(CreateBaseline(xs)))
    ensures Sum(Costs(Run(policy, b, HalfHour, 0.0, xs))) <= Sum(MeteredCosts(CreateBaseline(xs)))
  {
    var rows, base := Run(policy, b, HalfHour, 0.0, xs), CreateBaseline(xs);
    RunKeepsSocInRange(policy, b, HalfHour, 0.0, xs);
    forall k | 0 <= k < |xs|
      ensures rows[k].imported <= base[k].imported
      ensures rows[k].cost <= base[k].cost
    {
      assert xs[k].tariff >= 0.0;
      BilledBelowBaseline(rows[k], xs[k]);
    }
    SumMonotone(Imports(rows), MeteredImports(base));
    SumMonotone(Costs(rows), MeteredCosts(base));
  }

  /** Every engine's total import and total cost are non-negative at
      non-negative rates, and each interval's import and cost is at most the
      total: the battery never earns money on the import side. */
  lemma BatteryTotalsNonNegative(policy: Policy, b: Battery, dt: real, xs: seq<Interval>)
    requires ValidBattery(b, dt) && AllValid(xs) && TariffsNonNegative(xs)
    ensures var rows := Run(policy, b, dt, 0.0, xs);
      && 0.0 <= Sum(Imports(rows)) && 0.0 <= Sum(Costs(rows))
      && forall k :: 0 <= k < |xs| ==> rows[k].imported <= Sum(Imports(rows)) && rows[k].cost <= Sum(Costs(rows))
  {
    var rows := Run(policy, b, dt, 0.0, xs);
    RunKeepsSocInRange(policy, b, dt, 0.0, xs);
    BilledColumnsBounded(rows, xs);
  }

  /** Rows with non-negative flows billed at non-negative rates have
      non-negative import and cost totals that bound each row. */
  lemma BilledColumnsBounded(rows: seq<Row>, xs: seq<Interval>)
    requires |rows| == |xs| && TariffsNonNegative(xs)
    requires forall k :: 0 <= k < |rows| ==> NonNegativeFlows(rows[k]) && Billed(xs[k], rows[k])
    ensures 0.0 <= Sum(Imports(rows)) && 0.0 <= Sum(Costs(rows))
    ensures forall k :: 0 <= k < |rows| ==> rows[k].imported <= Sum(Imports(rows)) && rows[k].cost <= Sum(Costs(rows))
  {
    var imports, costs := Imports(rows), Costs(rows);
    forall k | 0 <= k < |rows|
      ensures 0.0 <= costs[k]
    {
      assert xs[k].tariff >= 0.0;
      ProductNonNegative(rows[k].imported, xs[k].tariff);
    }
    SumBoundsEntries(imports);
    SumBoundsEntries(costs);
  }

  /** The phase-II site: the first site's rows with the second's load and
      solar added; hour and tariff are the first site's. */
  function Aggregate(a: seq<Interval>, b: seq<Interval>): (c: seq<Interval>)
    requires |a| == |b|
    ensures |c| == |a|
    ensures forall k :: 0 <= k < |a| ==>
      c[k].loadKw == a[k].loadKw + b[k].loadKw && c[k].solarKw == a[k].solarKw + b[k].solarKw
    ensures forall k :: 0 <= k < |a| ==> c[k].hour == a[k].hour && c[k].tariff == a[k].tariff
  {
    seq(|a|, k requires 0 <= k < |a| => a[k].(loadKw := a[k].loadKw + b[k].loadKw, solarKw := a[k].solarKw + b[k].solarKw))
  }

  /** A row whose load is the sum of two rows' loads at the same rate has the
      sum of their baseline costs. */
  lemma BaselineCostSplits(x: Interval, y: Interval, z: Interval)
    requires z.loadKw == x.loadKw + y.loadKw && z.tariff == x.tariff == y.tariff
    ensures BaselineRow(z).cost == BaselineRow(x).cost + BaselineRow(y).cost
  {
    var t := z.tariff;
    assert (x.loadKw + y.loadKw) * HalfHour * t == x.loadKw * HalfHour * t + y.loadKw * HalfHour * t;
  }

  /** The aggregated site's baseline import is the sum of the two sites'
      baseline imports, row by row and in total; so is its cost when both
      sites pay the same rates. */
  lemma BaselineIsAdditive(a: seq<Interval>, b: seq<Interval>)
    requires |a| == |b|
    ensures Sum(MeteredImports(CreateBaseline(Aggregate(a, b))))
         == Sum(MeteredImports(CreateBaseline(a))) + Sum(MeteredImports(CreateBaseline(b)))
    ensures (forall k :: 0 <= k < |a| ==> a[k].tariff == b[k].tariff) ==>
      Sum(MeteredCosts(CreateBaseline(Aggregate(a, b))))
        == Sum(MeteredCosts(CreateBaseline(a))) + Sum(MeteredCosts(CreateBaseline(b)))
  {
    var c := Aggregate(a, b);
    SumPointwiseAdd(MeteredImports(CreateBaseline(a)), MeteredImports(CreateBaseline(b)), MeteredImports(CreateBaseline(c)));
    if forall k :: 0 <= k < |a| ==> a[k].tariff == b[k].tariff {
      forall k | 0 <= k < |a|
        ensures CreateBaseline(c)[k].cost == CreateBaseline(a)[k].cost + CreateBaseline(b)[k].cost
      {
        BaselineCostSplits(a[k], b[k], c[k]);
      }
      SumPointwiseAdd(MeteredCosts(CreateBaseline(a)), MeteredCosts(CreateBaseline(b)), MeteredCosts(CreateBaseline(c)));
    }
  }

  /** Pooling two sites never raises the solar-only import: one site's surplus
      covers the other's shortfall. */
  lemma SolarOnlyPoolingHelps(a: seq<Interval>, b: seq<Interval>)
    requires |a| == |b|
    ensures forall k :: 0 <= k < |a| ==>
      CreateSolarOnly(Aggregate(a, b))[k].imported <= CreateSolarOnly(a)[k].imported + CreateSolarOnly(b)[k].imported
    ensures Sum(MeteredImports(CreateSolarOnly(Aggregate(a, b))))
         <= Sum(MeteredImports(CreateSolarOnly(a))) + Sum(MeteredImports(CreateSolarOnly(b)))
  {
    var c := Aggregate(a, b);
    var sa, sb := MeteredImports(CreateSolarOnly(a)), MeteredImports(CreateSolarOnly(b));
    var both := seq(|a|, k requires 0 <= k < |a| => sa[k] + sb[k]);
    SumPointwiseAdd(sa, sb, both);
    SumMonotone(MeteredImports(CreateSolarOnly(c)), both);
  }
}

=== FILE: config.dfy ===
/** The inputs the engines validate: the `battery_params` dictionary and the
    column set of the input frame. */
module Config {
  import opened Results
  import opened Energy

  /** The `battery_params` dictionary: each key either present with a value or absent. */
  datatype BatteryParams = BatteryParams(
    capacityKwh: Option<real>,
    maxChargeKw: Option<real>,
    maxDischargeKw: Option<real>,
    roundTripEff: Option<real>,
    minSocKwh: Option<real>,
    maxSocKwh: Option<real>,
    allowGridCharge: Option<bool>)

  /** `KeyError` from indexing the dictionary, `ValueError` from the column check. */
  datatype Error = MissingKey(key: string) | MissingColumn(column: string)

  /** The keys scenarios 1 and 2 index directly, in the order they read them. */
  const RequiredKeys: seq<string> := ["Capacity_kWh", "Max_Charge_kW", "Max_Discharge_kW", "RoundTripEff"]

  /** The columns `simulate_battery_dispatch` checks, in the order it checks them. */
  const RequiredColumns: seq<string> := ["Load_kW", "Solar_kW", "TariffRate"]

  const DefaultCapacityKwh: real := 16000.0
  const DefaultMaxChargeKw: real := 8000.0
  const DefaultMaxDischargeKw: real := 8000.0
  const DefaultEff: real := 0.9
  const DefaultMinSocKwh: real := 0.0
  const DefaultAllowGridCharge: bool := true

  /** The names of the keys the dictionary holds. */
  function PresentKeys(p: BatteryParams): set<string> {
    (if p.capacityKwh.Some? then {"Capacity_kWh"} else {})
    + (if p.maxChargeKw.Some? then {"Max_Charge_kW"} else {})
    + (if p.maxDischargeKw.Some? then {"Max_Discharge_kW"} else {})
    + (if p.roundTripEff.Some? then {"RoundTripEff"} else {})
    + (if p.minSocKwh.Some? then {"MinSoC_kWh"} else {})
    + (if p.maxSocKwh.Some? then {"MaxSoC_kWh"} else {})
    + (if p.allowGridCharge.Some? then {"AllowGridCharge"} else {})
  }

  /** `names[j]` is absent and every name before it is present. */
  predicate FirstAbsentAt(names: seq<string>, present: set<string>, j: int) {
    0 <= j < |names| && names[j] !in present && forall j' :: 0 <= j' < j ==> names[j'] in present
  }

  /** The first of `names` not in `present`: the one a loop that checks them in
      order fails on. */
  function FirstMissing(names: seq<string>, present: set<string>): (r: Option<string>)
    ensures r.None? <==> forall j :: 0 <= j < |names| ==> names[j] in present
    ensures r.Some? ==> exists j :: FirstAbsentAt(names, present, j) && names[j] == r.value
    decreases |names|
  {
    if names == [] then None
    else if names[0] !in present then
      assert FirstAbsentAt(names, present, 0);
      Some(names[0])
    else
      var r := FirstMissing(names[1..], present);
      assert r.Some? ==> exists j :: FirstAbsentAt(names, present, j) && names[j] == r.value by {
        if r.Some? {
          var j :| FirstAbsentAt(names[1..], present, j) && names[1..][j] == r.value;
          assert FirstAbsentAt(names, present, j + 1);
        }
      }
      r
  }

  /** When no required key is missing, each of the four holds a value. */
  lemma RequiredKeysPresent(p: BatteryParams)
    requires FirstMissing(RequiredKeys, PresentKeys(p)).None?
    ensures p.capacityKwh.Some? && p.maxChargeKw.Some? && p.maxDischargeKw.Some? && p.roundTripEff.Some?
  {
    assert RequiredKeys[0] in PresentKeys(p) && RequiredKeys[1] in PresentKeys(p);
    assert RequiredKeys[2] in PresentKeys(p) && RequiredKeys[3] in PresentKeys(p);
    assert p.roundTripEff.Some? by {
      assert "RoundTripEff" != "Capacity_kWh" && "RoundTripEff" != "Max_Charge_kW";
      assert "RoundTripEff" != "Max_Discharge_kW" && "RoundTripEff" != "MinSoC_kWh";
      assert "RoundTripEff" != "MaxSoC_kWh" && "RoundTripEff" != "AllowGridCharge";
    }
  }

  /** How scenarios 1 and 2 read the dictionary: the four required keys by
      indexing (a missing one raises `KeyError`), `AllowGridCharge` with
      default True; the capacity is the SoC ceiling. */
  function ReadRequired(p: BatteryParams): (r: Result<Battery, Error>)
    ensures r.Ok? <==> forall j :: 0 <= j < |RequiredKeys| ==> RequiredKeys[j] in PresentKeys(p)
    ensures r.Err? ==> (
      && r.error.MissingKey?
      && exists j :: FirstAbsentAt(RequiredKeys, PresentKeys(p), j) && RequiredKeys[j] == r.error.key)
    ensures r.Ok? ==> (
      && p.capacityKwh.Some? && p.maxChargeKw.Some? && p.maxDischargeKw.Some? && p.roundTripEff.Some?
      && r.value.capacityKwh == p.capacityKwh.value
      && r.value.maxSocKwh == r.value.capacityKwh
      && r.value.maxChargeKw == p.maxChargeKw.value
      && r.value.maxDischargeKw == p.maxDischargeKw.value
      && r.value.eff == p.roundTripEff.value
      && r.value.allowGridCharge == p.allowGridCharge.GetOr(DefaultAllowGridCharge))
  {
    match FirstMissing(RequiredKeys, PresentKeys(p))
    case Some(key) => Err(MissingKey(key))
    case None =>
      RequiredKeysPresent(p);
      Ok(Battery(
        p.capacityKwh.value,
        p.maxChargeKw.value,
        p.maxDischargeKw.value,
        p.roundTripEff.value,
        DefaultMinSocKwh,
        p.capacityKwh.value,
        p.allowGridCharge.GetOr(DefaultAllowGridCharge)))
  }

  /** How `simulate_battery_dispatch` reads the dictionary: each of the six
      keys it reads with a default, and `MaxSoC_kWh` defaulting to the
      capacity actually used. It never reads `AllowGridCharge`; the field
      takes the scenario 2 default so that both readers build a `Battery`. */
  function ReadWithDefaults(p: BatteryParams): (b: Battery)
    ensures p.maxSocKwh.None? ==> b.maxSocKwh == b.capacityKwh
    ensures p.capacityKwh.Some? ==> b.capacityKwh == p.capacityKwh.value
    ensures p.capacityKwh.None? ==> b.capacityKwh == DefaultCapacityKwh
    ensures p.maxChargeKw.Some? ==> b.maxChargeKw == p.maxChargeKw.value
    ensures p.maxChargeKw.None? ==> b.maxChargeKw == DefaultMaxChargeKw
    ensures p.maxDischargeKw.Some? ==> b.maxDischargeKw == p.maxDischargeKw.value
    ensures p.maxDischargeKw.None? ==> b.maxDischargeKw == DefaultMaxDischargeKw
    ensures p.roundTripEff.Some? ==> b.eff == p.roundTripEff.value
    ensures p.roundTripEff.None? ==> b.eff == DefaultEff
    ensures p.minSocKwh.Some? ==> b.minSocKwh == p.minSocKwh.value
    ensures p.minSocKwh.None? ==> b.minSocKwh == DefaultMinSocKwh
    ensures p.maxSocKwh.Some? ==> b.maxSocKwh == p.maxSocKwh.value
    ensures p.allowGridCharge.Some? ==> b.allowGridCharge == p.allowGridCharge.value
    ensures p.allowGridCharge.None? ==> b.allowGridCharge == DefaultAllowGridCharge
  {
    var capacity := p.capacityKwh.GetOr(DefaultCapacityKwh);
    Battery(
      capacity,
      p.maxChargeKw.GetOr(DefaultMaxChargeKw),
      p.maxDischargeKw.GetOr(DefaultMaxDischargeKw),
      p.roundTripEff.GetOr(DefaultEff),
      p.minSocKwh.GetOr(DefaultMinSocKwh),
      p.maxSocKwh.GetOr(capacity),
      p.allowGridCharge.GetOr(DefaultAllowGridCharge))
  }

  /** The two readers agree whenever the dictionary holds the four required
      keys and neither SoC bound: only the SoC bounds are read differently. */
  lemma ReadersAgree(p: BatteryParams)
    requires ReadRequired(p).Ok? && p.minSocKwh.None? && p.maxSocKwh.None?
    ensures ReadWithDefaults(p) == ReadRequired(p).value
  {
  }

  /** A given `MaxSoC_kWh` is the one key that makes the
      load-first engine's ceiling differ from the charge-first engines'. */
  lemma ReadersDifferOnMaxSoc(p: BatteryParams)
    requires ReadRequired(p).Ok? && p.maxSocKwh.Some?
    ensures ReadWithDefaults(p).maxSocKwh == p.maxSocKwh.value
    ensures ReadRequired(p).value.maxSocKwh == ReadWithDefaults(p).capacityKwh
  {
  }
}

=== FILE: dispatch.dfy ===
/** The per-interval dispatch step of the three engines, written as one step
    function parameterised by a policy:
    - `FixedWindow` (scenario 1): solar charges first; discharge only 17:00-23:00;
    - `PriceDriven` (scenario 2): solar charges first; discharge when the rate is
      at least 0.15; top up from the grid when the rate is at most 0.08;
    - `LoadFirst` (`simulate_battery_dispatch`): solar serves the load first,
      only the surplus charges, at a fixed factor of 0.95; discharge whenever
      there is a deficit.
    Each step first turns powers into energies for the interval (kW times `dt`
    hours, `ToEnergies`) and then works on kWh only. */
module Dispatch {
  import opened Tariff
  import opened Energy

  datatype Policy = FixedWindow | PriceDriven | LoadFirst

  const DischargeThreshold: real := 0.15
  const GridChargeThreshold: real := 0.08
  const LoadFirstChargeFactor: real := 0.95

  /** The SoC ceiling the policy charges up to: the charge-first engines use
      the capacity, the load-first engine `MaxSoC_kWh`. */
  function Ceiling(policy: Policy, b: Battery): real {
    if policy.LoadFirst? then b.maxSocKwh else b.capacityKwh
  }

  /** Whether the policy lets the battery serve an unmet load, given the SoC
      left after solar charging. The charge-first engine also demands a
      positive SoC. Under the standard tariff the price-driven gate opens
      in exactly the day and peak hours. */
  function MayDischarge(policy: Policy, i: Interval, soc: real): (ok: bool)
    ensures policy.FixedWindow? && soc > 0.0 ==> (ok <==> 17 <= i.hour < 23)
    ensures policy.FixedWindow? && soc <= 0.0 ==> (ok <==> 17 <= i.hour < 19)
    ensures policy.PriceDriven? && i.tariff == Rate(i.hour) ==> (ok <==> 8 <= i.hour < 23 && soc > 0.0)
    ensures policy.LoadFirst? ==> ok
  {
    match policy
    case FixedWindow => (17 <= i.hour < 19) || (19 <= i.hour < 23 && soc > 0.0)
    case PriceDriven => i.tariff >= DischargeThreshold && soc > 0.0
    case LoadFirst => true
  }

  /** Whether the policy buys grid energy into the battery at the end of the
      interval. Under the standard tariff that is exactly the night hours,
      and an interval it fires in is never one the discharge gate opens in. */
  function MayGridCharge(policy: Policy, b: Battery, i: Interval, soc: real): (ok: bool)
    ensures ok ==> policy.PriceDriven? && b.allowGridCharge && soc < b.capacityKwh
    ensures i.tariff == Rate(i.hour) ==>
      (ok <==> policy.PriceDriven? && b.allowGridCharge && soc < b.capacityKwh && (i.hour < 8 || i.hour == 23))
    ensures ok ==> forall s: real :: !MayDischarge(policy, i, s)
  {
    policy.PriceDriven? && b.allowGridCharge && i.tariff <= GridChargeThreshold && soc < b.capacityKwh
  }

  /** Energy drawn from the SoC and energy it delivers to the load. */
  datatype Discharge = Discharge(drawn: real, delivered: real)

  /** Serve `unmet` kWh from a battery holding `soc` with a per-interval limit
      of `limit` kWh, losing the whole round-trip efficiency on the way out:
      if `min(soc, limit) * eff` covers the need the battery gives exactly the
      need, otherwise everything it can. */
  function DischargeFor(soc: real, limit: real, eff: real, unmet: real): (d: Discharge)
    requires unmet > 0.0
    ensures d.delivered == Min(unmet, Min(soc, limit) * eff)
    ensures d.delivered == d.drawn * eff
    ensures d.delivered < unmet ==> d.drawn == Min(soc, limit)
    ensures eff > 0.0 ==> d.drawn <= Min(soc, limit)
    ensures eff > 0.0 && soc >= 0.0 && limit >= 0.0 ==> d.drawn >= 0.0 && d.delivered >= 0.0
  {
    var possible := Min(soc, limit);
    var out := possible * eff;
    if out >= unmet then
      assert eff != 0.0;
      Discharge(unmet / eff, unmet)
    else
      Discharge(possible, out)
  }

  /** Steps 2 and 3 of the charge-first engines: leftover solar serves the
      `load` (kWh), the battery covers what the policy lets it, the grid the
      rest. `socCharged` is the SoC after solar charging. */
  function ServeLoad(policy: Policy, eff: real, e: Energies, i: Interval, socCharged: real, charge: real, leftover: real): (r: Row)
    ensures r.charged == charge && r.gridCharged == 0.0
    ensures leftover + r.delivered + r.imported == e.load + r.exported
    ensures Billed(i, r)
    ensures r.soc == socCharged - r.drawn
    ensures r.imported == 0.0 || r.exported == 0.0
    ensures r.drawn != 0.0 ==> MayDischarge(policy, i, socCharged) && socCharged > 0.0
    ensures leftover >= e.load ==> r.drawn == 0.0 && r.imported == 0.0 && r.exported == leftover - e.load
    ensures leftover < e.load && MayDischarge(policy, i, socCharged) && socCharged > 0.0 ==>
      && r.drawn == DischargeFor(socCharged, e.maxDischarge, eff, e.load - leftover).drawn
      && r.delivered == DischargeFor(socCharged, e.maxDischarge, eff, e.load - leftover).delivered
      && r.exported == 0.0
    ensures leftover < e.load && !(MayDischarge(policy, i, socCharged) && socCharged > 0.0) ==>
      r.drawn == 0.0 && r.delivered == 0.0 && r.imported == e.load - leftover && r.exported == 0.0
  {
    if leftover >= e.load then
      Row(socCharged, charge, 0.0, 0.0, 0.0, 0.0, leftover - e.load, 0.0)
    else
      var unmet := e.load - leftover;
      if MayDischarge(policy, i, socCharged) && socCharged > 0.0 then
        var d := DischargeFor(socCharged, e.maxDischarge, eff, unmet);
        var stillNeeded := unmet - d.delivered;
        Row(socCharged - d.drawn, charge, 0.0, d.drawn, d.delivered, stillNeeded, 0.0, stillNeeded * i.tariff)
      else
        Row(socCharged, charge, 0.0, 0.0, 0.0, unmet, 0.0, unmet * i.tariff)
  }

  /** Step 4 of the price-driven engine: buy `min(cap - soc, maxCharge)` kWh
      from the grid into the battery; the purchase is added to the import and
      billed at the interval's rate. */
  function GridTopUp(policy: Policy, b: Battery, e: Energies, i: Interval, r: Row): (r': Row)
    requires r.gridCharged == 0.0
    ensures r'.gridCharged == (if MayGridCharge(policy, b, i, r.soc) then Min(b.capacityKwh - r.soc, e.maxCharge) else 0.0)
    ensures r'.soc - r.soc == r'.imported - r.imported == r'.gridCharged
    ensures r'.cost - r.cost == (r'.imported - r.imported) * i.tariff
    ensures r.soc <= b.capacityKwh ==> r'.soc <= b.capacityKwh
    ensures e.maxCharge >= 0.0 ==> r'.soc >= r.soc
    ensures r'.charged == r.charged && r'.drawn == r.drawn && r'.delivered == r.delivered && r'.exported == r.exported
  {
    if MayGridCharge(policy, b, i, r.soc) then
      var needed := b.capacityKwh - r.soc;
      var chargeNow := Min(needed, e.maxCharge);
      r.(soc := r.soc + chargeNow,
         gridCharged := chargeNow,
         imported := r.imported + chargeNow,
         cost := r.cost + chargeNow * i.tariff)
    else
      r
  }

  /** One interval of scenario 1 or scenario 2, from the SoC `soc` left by the
      previous interval: solar charging, then the load (the battery serving
      it when the gate is open), then the grid top-up on the SoC that is left.
      Together with the balance the clauses fix every field of the row. */
  function ChargeFirstKwh(policy: Policy, b: Battery, e: Energies, i: Interval, soc: real): (r: Row)
    requires !policy.LoadFirst?
    ensures Balanced(e, r) && Billed(i, r)
    ensures r.soc == soc + r.charged + r.gridCharged - r.drawn
    ensures r.charged == Min3(e.solar, e.maxCharge, b.capacityKwh - soc)
    ensures var c := Min3(e.solar, e.maxCharge, b.capacityKwh - soc);
      e.solar - c >= e.load ==> r.drawn == 0.0 && r.delivered == 0.0 && r.exported == e.solar - c - e.load
    ensures var c := Min3(e.solar, e.maxCharge, b.capacityKwh - soc);
      e.solar - c < e.load && MayDischarge(policy, i, soc + c) && soc + c > 0.0 ==>
        && r.drawn == DischargeFor(soc + c, e.maxDischarge, b.eff, e.load - (e.solar - c)).drawn
        && r.delivered == DischargeFor(soc + c, e.maxDischarge, b.eff, e.load - (e.solar - c)).delivered
    ensures var c := Min3(e.solar, e.maxCharge, b.capacityKwh - soc);
      e.solar - c < e.load && !(MayDischarge(policy, i, soc + c) && soc + c > 0.0) ==> r.drawn == 0.0 && r.delivered == 0.0
    ensures var c := Min3(e.solar, e.maxCharge, b.capacityKwh - soc);
      e.solar - c < e.load ==> r.exported == 0.0
    ensures var c := Min3(e.solar, e.maxCharge, b.capacityKwh - soc);
      r.gridCharged == (if MayGridCharge(policy, b, i, soc + c - r.drawn) then Min(b.capacityKwh - (soc + c - r.drawn), e.maxCharge) else 0.0)
  {
    var charge := Min3(e.solar, e.maxCharge, b.capacityKwh - soc);
    var served := ServeLoad(policy, b.eff, e, i, soc + charge, charge, e.solar - charge);
    GridTopUp(policy, b, e, i, served)
  }

  /** One interval of `simulate_battery_dispatch`. Battery_Charge_kWh is
      `charged`, Battery_Discharge_kWh is `drawn`. A surplus charges by the
      smallest of surplus, limit and headroom; a deficit is served by the
      battery at any hour and any rate. */
  function LoadFirstKwh(b: Battery, e: Energies, i: Interval, soc: real): (r: Row)
    ensures Balanced(e, r) && Billed(i, r)
    ensures r.gridCharged == 0.0
    ensures r.charged == 0.0 || r.drawn == 0.0
    ensures r.imported == 0.0 || r.exported == 0.0
    ensures r.charged != 0.0 ==> r.imported == 0.0
    ensures soc <= b.maxSocKwh ==> r.soc == soc + LoadFirstChargeFactor * r.charged - r.drawn
    ensures e.solar >= e.load ==>
      && r.charged == Min3(e.solar - e.load, e.maxCharge, b.maxSocKwh - soc)
      && r.drawn == 0.0 && r.delivered == 0.0
      && r.exported == e.solar - e.load - r.charged
      && r.soc == Min(soc + LoadFirstChargeFactor * r.charged, b.maxSocKwh)
    ensures e.solar < e.load ==>
      && r.charged == 0.0 && r.exported == 0.0
      && r.drawn == DischargeFor(soc, e.maxDischarge, b.eff, e.load - e.solar).drawn
      && r.delivered == DischargeFor(soc, e.maxDischarge, b.eff, e.load - e.solar).delivered
      && r.soc == soc - r.drawn
  {
    if e.solar >= e.load then
      var surplus := e.solar - e.load;
      var charge := Min3(surplus, e.maxCharge, b.maxSocKwh - soc);
      var newSoc := soc + charge * LoadFirstChargeFactor;
      Row(Min(newSoc, b.maxSocKwh), charge, 0.0, 0.0, 0.0, 0.0, surplus - charge, 0.0)
    else
      var deficit := e.load - e.solar;
      var d := DischargeFor(soc, e.maxDischarge, b.eff, deficit);
      var stillNeeded := deficit - d.delivered;
      Row(soc - d.drawn, 0.0, 0.0, d.drawn, d.delivered, stillNeeded, 0.0, stillNeeded * i.tariff)
  }

  /** One interval of the engine the policy selects, interval length `dt`
      hours: the load-first step or the charge-first step on the interval's
      energies, so it carries their contracts. */
  function Step(policy: Policy, b: Battery, dt: real, soc: real, i: Interval): (r: Row)
    ensures Balanced(ToEnergies(b, dt, i), r) && Billed(i, r)
    ensures policy.LoadFirst? ==> r == LoadFirstKwh(b, ToEnergies(b, dt, i), i, soc)
    ensures !policy.LoadFirst? ==> r == ChargeFirstKwh(policy, b, ToEnergies(b, dt, i), i, soc)
  {
    var e := ToEnergies(b, dt, i);
    if policy.LoadFirst? then LoadFirstKwh(b, e, i, soc) else ChargeFirstKwh(policy, b, e, i, soc)
  }
}

=== FILE: energy.dfy ===
/** The data the dispatch engines share: one interval of the input series,
    the battery parameters once read from the parameter dictionary, and
    the row each engine writes for an interval. */
module Energy {
  import opened Tariff

  /** One row of the input series: the hour of its timestamp, load and solar
      power in kW, and the tariff rate in currency per kWh. */
  datatype Interval = Interval(hour: Hour, loadKw: real, solarKw: real, tariff: real)

  /** Battery parameters with every key resolved. `minSocKwh` is read by the
      load-first engine but never used by any engine. */
  datatype Battery = Battery(
    capacityKwh: real,
    maxChargeKw: real,
    maxDischargeKw: real,
    eff: real,
    minSocKwh: real,
    maxSocKwh: real,
    allowGridCharge: bool)

  /** What an engine records for one interval. All energies are kWh.
      `charged` is taken from solar into the battery, `gridCharged` bought
      from the grid into the battery, `drawn` removed from the state of
      charge, `delivered` what that discharge supplied to the load. */
  datatype Row = Row(
    soc: real,
    charged: real,
    gridCharged: real,
    drawn: real,
    delivered: real,
    imported: real,
    exported: real,
    cost: real)

  function Min(a: real, b: real): (m: real)
    ensures m <= a && m <= b
    ensures m == a || m == b
  {
    if a <= b then a else b
  }

  /** Python's three-argument `min`. */
  function Min3(a: real, b: real, c: real): (m: real)
    ensures m <= a && m <= b && m <= c
    ensures m == a || m == b || m == c
  {
    Min(Min(a, b), c)
  }

  /** The conditions under which the engines' energy flows are physically
      meaningful; the source checks none of them. */
  predicate ValidBattery(b: Battery, dt: real) {
    && b.capacityKwh >= 0.0
    && b.maxSocKwh >= 0.0
    && b.maxChargeKw >= 0.0
    && b.maxDischargeKw >= 0.0
    && b.eff > 0.0
    && dt >= 0.0
  }

  predicate ValidInterval(i: Interval) {
    i.loadKw >= 0.0 && i.solarKw >= 0.0
  }

  predicate AllValid(xs: seq<Interval>) {
    forall k :: 0 <= k < |xs| ==> ValidInterval(xs[k])
  }

  predicate TariffsNonNegative(xs: seq<Interval>) {
    forall k :: 0 <= k < |xs| ==> xs[k].tariff >= 0.0
  }

  /** The quantities of one interval as energies over `dt` hours (kWh): the
      `load_kWh`, `solar_kWh`, `max_charge_kWh` and `max_discharge_kWh` of the engines. */
  datatype Energies = Energies(load: real, solar: real, maxCharge: real, maxDischarge: real)

  function ToEnergies(b: Battery, dt: real, i: Interval): (e: Energies)
    ensures ValidBattery(b, dt) && ValidInterval(i)
      ==> e.load >= 0.0 && e.solar >= 0.0 && e.maxCharge >= 0.0 && e.maxDischarge >= 0.0
  {
    ProductNonNegative(i.loadKw, dt);
    ProductNonNegative(i.solarKw, dt);
    ProductNonNegative(b.maxChargeKw, dt);
    ProductNonNegative(b.maxDischargeKw, dt);
    Energies(i.loadKw * dt, i.solarKw * dt, b.maxChargeKw * dt, b.maxDischargeKw * dt)
  }

  lemma ProductNonNegative(x: real, y: real)
    ensures x >= 0.0 && y >= 0.0 ==> x * y >= 0.0
  {
  }

  /** Energy in equals energy out over the interval: what solar, the battery
      and the grid supply covers the load, the export and both kinds of charging. */
  predicate Balanced(e: Energies, r: Row) {
    e.solar + r.delivered + r.imported == e.load + r.exported + r.charged + r.gridCharged
  }

  /** Every kWh imported in the interval is paid at that interval's rate. */
  predicate Billed(i: Interval, r: Row) {
    r.cost == r.imported * i.tariff
  }

  /** No flow of the row is negative. */
  predicate NonNegativeFlows(r: Row) {
    && r.charged >= 0.0
    && r.gridCharged >= 0.0
    && r.drawn >= 0.0
    && r.delivered >= 0.0
    && r.imported >= 0.0
    && r.exported >= 0.0
  }

  /** The `Grid_Import_kWh` column of an output. */
  function Imports(rows: seq<Row>): (s: seq<real>)
    ensures |s| == |rows|
    ensures forall k :: 0 <= k < |rows| ==> s[k] == rows[k].imported
  {
    seq(|rows|, k requires 0 <= k < |rows| => rows[k].imported)
  }

  /** The `Cost` column of an output. */
  function Costs(rows: seq<Row>): (s: seq<real>)
    ensures |s| == |rows|
    ensures forall k :: 0 <= k < |rows| ==> s[k] == rows[k].cost
  {
    seq(|rows|, k requires 0 <= k < |rows| => rows[k].cost)
  }
}

=== FILE: engines.dfy ===
/** The three simulation entry points: parameter reading and input validation
    around the shared fold, each starting from an empty battery (SoC 0). */
module Engines {
  import opened Results
  import opened Energy
  import opened Dispatch
  import opened Simulator
  import opened Config

  /** The input frame of `simulate_battery_dispatch`: the set of its column
      names and, when the value columns are there, its rows. */
  datatype Frame = Frame(columns: set<string>, rows: seq<Interval>)

  /** `simulate_scenario_1`: fixed-window dispatch from SoC 0. A missing
      required battery key raises `KeyError` before any interval is processed. */
  function SimulateScenario1(xs: seq<Interval>, p: BatteryParams, dt: real): (r: Result<seq<Row>, Error>)
    ensures r.Err? <==> exists j :: 0 <= j < |RequiredKeys| && RequiredKeys[j] !in PresentKeys(p)
    ensures r.Err? ==> r.error.MissingKey? && ReadRequired(p).Err? && r.error == ReadRequired(p).error
    ensures r.Ok? ==> |r.value| == |xs| && ReadRequired(p).Ok?
    ensures r.Ok? && |xs| > 0 ==> r.value[0] == Step(FixedWindow, ReadRequired(p).value, dt, 0.0, xs[0])
    ensures r.Ok? ==> forall k :: 0 <= k < |xs| ==>
      r.value[k] == Step(FixedWindow, ReadRequired(p).value, dt, SocBefore(0.0, r.value, k), xs[k])
    ensures r.Ok? ==> forall k :: 0 <= k < |xs| ==>
      Balanced(ToEnergies(ReadRequired(p).value, dt, xs[k]), r.value[k]) && Billed(xs[k], r.value[k])
  {
    match ReadRequired(p)
    case Err(e) => Err(e)
    case Ok(b) => Ok(Run(FixedWindow, b, dt, 0.0, xs))
  }

  /** `simulate_scenario_2`: price-driven dispatch from SoC 0, with grid
      charging unless `AllowGridCharge` is present and false. */
  function SimulateScenario2(xs: seq<Interval>, p: BatteryParams, dt: real): (r: Result<seq<Row>, Error>)
    ensures r.Err? <==> exists j :: 0 <= j < |RequiredKeys| && RequiredKeys[j] !in PresentKeys(p)
    ensures r.Err? ==> r.error.MissingKey? && ReadRequired(p).Err? && r.error == ReadRequired(p).error
    ensures r.Ok? ==> |r.value| == |xs| && ReadRequired(p).Ok?
    ensures r.Ok? ==> ReadRequired(p).value.allowGridCharge == (p.allowGridCharge != Some(false))
    ensures r.Ok? && |xs| > 0 ==> r.value[0] == Step(PriceDriven, ReadRequired(p).value, dt, 0.0, xs[0])
    ensures r.Ok? ==> forall k :: 0 <= k < |xs| ==>
      r.value[k] == Step(PriceDriven, ReadRequired(p).value, dt, SocBefore(0.0, r.value, k), xs[k])
    ensures r.Ok? ==> forall k :: 0 <= k < |xs| ==>
      Balanced(ToEnergies(ReadRequired(p).value, dt, xs[k]), r.value[k]) && Billed(xs[k], r.value[k])
  {
    match ReadRequired(p)
    case Err(e) => Err(e)
    case Ok(b) => Ok(Run(PriceDriven, b, dt, 0.0, xs))
  }

  /** `simulate_battery_dispatch`: load-first dispatch from SoC 0 with every
      battery key defaulted. A missing value column raises `ValueError`
      naming the first one missing, before any interval is processed. */
  function SimulateBatteryDispatch(f: Frame, p: BatteryParams, dt: real): (r: Result<seq<Row>, Error>)
    ensures r.Err? <==> exists j :: 0 <= j < |RequiredColumns| && RequiredColumns[j] !in f.columns
    ensures r.Err? ==> r.error.MissingColumn? && exists j :: FirstAbsentAt(RequiredColumns, f.columns, j) && RequiredColumns[j] == r.error.column
    ensures r.Ok? ==> |r.value| == |f.rows|
    ensures r.Ok? && |f.rows| > 0 ==> r.value[0] == Step(LoadFirst, ReadWithDefaults(p), dt, 0.0, f.rows[0])
    ensures r.Ok? ==> forall k :: 0 <= k < |f.rows| ==>
      r.value[k] == Step(LoadFirst, ReadWithDefaults(p), dt, SocBefore(0.0, r.value, k), f.rows[k])
    ensures r.Ok? ==> forall k :: 0 <= k < |f.rows| ==>
      Balanced(ToEnergies(ReadWithDefaults(p), dt, f.rows[k]), r.value[k]) && Billed(f.rows[k], r.value[k])
  {
    match FirstMissing(RequiredColumns, f.columns)
    case Some(column) => Err(MissingColumn(column))
    case None => Ok(Run(LoadFirst, ReadWithDefaults(p), dt, 0.0, f.rows))
  }

  /** The SoC ceiling each engine charges up to: the capacity for scenarios
      1 and 2; for the load-first engine `MaxSoC_kWh` when given, otherwise
      the capacity it uses. */
  lemma EngineCeilings(p: BatteryParams)
    ensures ReadRequired(p).Ok? ==>
      && Ceiling(FixedWindow, ReadRequired(p).value) == p.capacityKwh.value
      && Ceiling(PriceDriven, ReadRequired(p).value) == p.capacityKwh.value
    ensures p.maxSocKwh.Some? ==> Ceiling(LoadFirst, ReadWithDefaults(p)) == p.maxSocKwh.value
    ensures p.maxSocKwh.None? && p.capacityKwh.Some? ==> Ceiling(LoadFirst, ReadWithDefaults(p)) == p.capacityKwh.value
    ensures p.maxSocKwh.None? && p.capacityKwh.None? ==> Ceiling(LoadFirst, ReadWithDefaults(p)) == DefaultCapacityKwh
  {
  }

  /** Scenario 1 keeps `0 <= SoC <= Capacity` after every interval, imports no
      more than each interval's load and discharges only in 17:00-23:00. */
  lemma Scenario1Invariants(xs: seq<Interval>, p: BatteryParams, dt: real, b: Battery)
    requires ReadRequired(p) == Ok(b) && ValidBattery(b, dt) && AllValid(xs)
    ensures SimulateScenario1(xs, p, dt).Ok?
    ensures forall k :: 0 <= k < |xs| ==> 0.0 <= SimulateScenario1(xs, p, dt).value[k].soc <= b.capacityKwh
    ensures forall k :: 0 <= k < |xs| ==> SimulateScenario1(xs, p, dt).value[k].imported <= ToEnergies(b, dt, xs[k]).load
    ensures forall k :: 0 <= k < |xs| ==> SimulateScenario1(xs, p, dt).value[k].drawn != 0.0 ==> 17 <= xs[k].hour < 23
  {
    RunKeepsSocInRange(FixedWindow, b, dt, 0.0, xs);
    FixedWindowRunGating(b, dt, 0.0, xs);
  }

  /** Scenario 2 keeps `0 <= SoC <= Capacity` after every interval, grid top-up
      included, and never discharges and grid-charges in one interval. */
  lemma Scenario2Invariants(xs: seq<Interval>, p: BatteryParams, dt: real, b: Battery)
    requires ReadRequired(p) == Ok(b) && ValidBattery(b, dt) && AllValid(xs)
    ensures SimulateScenario2(xs, p, dt).Ok?
    ensures forall k :: 0 <= k < |xs| ==> 0.0 <= SimulateScenario2(xs, p, dt).value[k].soc <= b.capacityKwh
    ensures forall k :: 0 <= k < |xs| ==>
      SimulateScenario2(xs, p, dt).value[k].drawn == 0.0 || SimulateScenario2(xs, p, dt).value[k].gridCharged == 0.0
  {
    RunKeepsSocInRange(PriceDriven, b, dt, 0.0, xs);
    PriceDrivenRunGating(b, dt, 0.0, xs);
  }

  /** The load-first engine keeps `0 <= SoC <= MaxSoC` after every interval:
      the floor is 0, not `MinSoC_kWh`, which the engine never consults. */
  lemma BatteryDispatchInvariants(f: Frame, p: BatteryParams, dt: real)
    requires forall j :: 0 <= j < |RequiredColumns| ==> RequiredColumns[j] in f.columns
    requires ValidBattery(ReadWithDefaults(p), dt) && AllValid(f.rows)
    ensures SimulateBatteryDispatch(f, p, dt).Ok?
    ensures forall k :: 0 <= k < |f.rows| ==> 0.0 <= SimulateBatteryDispatch(f, p, dt).value[k].soc <= ReadWithDefaults(p).maxSocKwh
    ensures forall k :: 0 <= k < |f.rows| ==> NonNegativeFlows(SimulateBatteryDispatch(f, p, dt).value[k])
    ensures forall k :: 0 <= k < |f.rows| ==>
      SimulateBatteryDispatch(f, p, dt).value[k].charged == 0.0 || SimulateBatteryDispatch(f, p, dt).value[k].drawn == 0.0
  {
    RunKeepsSocInRange(LoadFirst, ReadWithDefaults(p), dt, 0.0, f.rows);
    LoadFirstRunExclusive(ReadWithDefaults(p), dt, 0.0, f.rows);
  }
}

=== FILE: examples.dfy ===
/** Behaviours of the engines that the general lemmas permit but that are
    easy to overlook. The worked single intervals use half-hour intervals and
    a 100 kWh battery with 50 kW limits (25 kWh per interval) and a
    round-trip efficiency of 0.9. */
module Examples {
  import opened Tariff
  import opened Energy
  import opened Dispatch
  import opened StepProperties
  import opened Baseline

  const Demo: Battery := Battery(100.0, 50.0, 50.0, 0.9, 0.0, 100.0, true)

  /** Scenario 1 at 17:00, empty battery, 20 kW of solar against 100 kW of
      load: solar goes into the battery, and the battery then gives it back at
      0.9, so the same interval both charges and discharges and imports 41 kWh
      where the solar-only comparator imports 40. */
  lemma FixedWindowChargesAndDischargesTogether()
    ensures var i := Interval(17, 100.0, 20.0, 0.25);
      var r := Step(FixedWindow, Demo, HalfHour, 0.0, i);
      && r.charged == 10.0 && r.drawn == 10.0 && r.delivered == 9.0
      && r.imported == 41.0 && r.soc == 0.0 && r.cost == 10.25
      && SolarOnlyRow(i).imported == 40.0
  {
    var i := Interval(17, 100.0, 20.0, 0.25);
    var e := ToEnergies(Demo, HalfHour, i);
    assert e == Energies(50.0, 10.0, 25.0, 25.0);
    var c := Min3(e.solar, e.maxCharge, Demo.capacityKwh - 0.0);
    assert c == 10.0;
    assert MayDischarge(FixedWindow, i, 10.0);
    assert DischargeFor(10.0, 25.0, 0.9, 50.0) == Discharge(10.0, 9.0);
    var s := ServeLoad(FixedWindow, Demo.eff, e, i, 0.0 + c, c, e.solar - c);
    assert s.charged == 10.0 && s.drawn == 10.0 && s.delivered == 9.0 && s.imported == 41.0 && s.soc == 0.0;
    assert !MayGridCharge(FixedWindow, Demo, i, s.soc);
    ChargeFirstComposition(FixedWindow, Demo, HalfHour, 0.0, i);
  }

  /** Scenario 1 in the peak hours with no solar, for any battery whose
      stored energy is within the discharge limit but, after the efficiency
      loss, short of the need: the battery is emptied, delivering `soc × eff`,
      and the grid covers the rest. */
  lemma FixedWindowPeakDischarge(b: Battery, dt: real, soc: real, i: Interval)
    requires b.maxChargeKw >= 0.0 && b.eff > 0.0 && dt > 0.0 && 0.0 < soc <= b.capacityKwh
    requires soc <= b.maxDischargeKw * dt && soc * b.eff < i.loadKw * dt
    requires 17 <= i.hour < 19 && i.solarKw == 0.0
    ensures var r := Step(FixedWindow, b, dt, soc, i);
      && r.drawn == soc && r.delivered == soc * b.eff && r.soc == 0.0
      && r.imported == i.loadKw * dt - soc * b.eff && r.exported == 0.0
  {
    var e := ToEnergies(b, dt, i);
    assert e == Energies(i.loadKw * dt, 0.0, b.maxChargeKw * dt, b.maxDischargeKw * dt);
    assert b.maxChargeKw * dt >= 0.0;
    PeakShortfall(b, e, i, soc);
    assert Step(FixedWindow, b, dt, soc, i) == ChargeFirstKwh(FixedWindow, b, e, i, soc);
  }

  /** The same interval in kWh. */
  lemma PeakShortfall(b: Battery, e: Energies, i: Interval, soc: real)
    requires e.maxCharge >= 0.0 && b.eff > 0.0 && 0.0 < soc <= b.capacityKwh
    requires soc <= e.maxDischarge && soc * b.eff < e.load
    requires 17 <= i.hour < 19 && e.solar == 0.0
    ensures var r := ChargeFirstKwh(FixedWindow, b, e, i, soc);
      && r.drawn == soc && r.delivered == soc * b.eff && r.soc == 0.0
      && r.imported == e.load - soc * b.eff && r.exported == 0.0
  {
    var r := ChargeFirstKwh(FixedWindow, b, e, i, soc);
    var c := Min3(e.solar, e.maxCharge, b.capacityKwh - soc);
    assert c == 0.0;
    assert soc * b.eff > 0.0;
    assert MayDischarge(FixedWindow, i, soc + c);
    var d := DischargeFor(soc + c, e.maxDischarge, b.eff, e.load - (e.solar - c));
    assert Min(soc, e.maxDischarge) == soc;
    assert d.delivered == soc * b.eff < e.load;
    assert r.drawn == d.drawn == soc;
    assert !MayGridCharge(FixedWindow, b, i, 0.0);
  }

  /** Scenario 1 at 10:00 with a charged battery and no solar: outside the
      window the whole load is imported and the SoC is kept. */
  lemma FixedWindowHoldsOutsideWindow()
    ensures var r := Step(FixedWindow, Demo, HalfHour, 60.0, Interval(10, 100.0, 0.0, 0.15));
      r.drawn == 0.0 && r.imported == 50.0 && r.soc == 60.0
  {
    var i := Interval(10, 100.0, 0.0, 0.15);
    var e := ToEnergies(Demo, HalfHour, i);
    assert e == Energies(50.0, 0.0, 25.0, 25.0);
    var c := Min3(e.solar, e.maxCharge, Demo.capacityKwh - 60.0);
    assert c == 0.0;
    assert !MayDischarge(FixedWindow, i, 60.0);
    var s := ServeLoad(FixedWindow, Demo.eff, e, i, 60.0 + c, c, e.solar - c);
    assert s.drawn == 0.0 && s.imported == 50.0 && s.soc == 60.0;
    assert !MayGridCharge(FixedWindow, Demo, i, s.soc);
    ChargeFirstComposition(FixedWindow, Demo, HalfHour, 60.0, i);
  }

  /** Scenario 2 in a night interval of the standard tariff, starting from
      an empty battery that may charge from the grid, with no load and no
      solar: the engine buys a full interval's charge, `min(capacity, max
      charge)`, at the night rate, while the baseline pays nothing. Grid
      charging is why `BatteryNeverExceedsBaseline` leaves scenario 2 out. */
  lemma PriceDrivenGridChargeCostsMoreThanBaseline(b: Battery, dt: real, i: Interval)
    requires b.allowGridCharge && b.capacityKwh > 0.0 && b.maxChargeKw > 0.0 && dt > 0.0
    requires i.loadKw == 0.0 && i.solarKw == 0.0 && i.hour < 8 && i.tariff == Rate(i.hour)
    ensures var r := Step(PriceDriven, b, dt, 0.0, i);
      && r.gridCharged == r.imported == Min(b.capacityKwh, b.maxChargeKw * dt) > 0.0
      && r.cost == r.imported * NightRate > BaselineRow(i).cost == 0.0
  {
    var e := ToEnergies(b, dt, i);
    assert e.load == 0.0 && e.solar == 0.0 && e.maxCharge == b.maxChargeKw * dt > 0.0;
    var r := Step(PriceDriven, b, dt, 0.0, i);
    assert r == ChargeFirstKwh(PriceDriven, b, e, i, 0.0);
    assert r.charged == 0.0;
    assert r.drawn == 0.0 && r.delivered == 0.0 && r.exported == 0.0;
    assert MayGridCharge(PriceDriven, b, i, 0.0);
    assert r.gridCharged == Min(b.capacityKwh, e.maxCharge);
    assert Rate(i.hour) == NightRate;
  }

  /** Scenario 2 in a night interval with no load, solar beyond the charge
      limit and room for two intervals' charge: solar fills the battery by
      the limit and the rest is exported, then the grid top-up buys the limit
      again. The interval both imports and exports, and the battery gains
      twice its per-interval charge limit. */
  lemma PriceDrivenImportsAndExportsTogether(b: Battery, dt: real, i: Interval)
    requires b.allowGridCharge && b.maxChargeKw > 0.0 && dt > 0.0
    requires b.capacityKwh >= 2.0 * (b.maxChargeKw * dt)
    requires i.loadKw == 0.0 && i.solarKw > b.maxChargeKw && i.hour < 8 && i.tariff == Rate(i.hour)
    ensures var r := Step(PriceDriven, b, dt, 0.0, i);
      && r.charged == r.gridCharged == r.imported == b.maxChargeKw * dt
      && r.soc == 2.0 * (b.maxChargeKw * dt)
      && r.exported == i.solarKw * dt - b.maxChargeKw * dt > 0.0
  {
    var e := ToEnergies(b, dt, i);
    assert e == Energies(0.0, i.solarKw * dt, b.maxChargeKw * dt, b.maxDischargeKw * dt);
    assert b.maxChargeKw * dt > 0.0;
    assert i.solarKw * dt - b.maxChargeKw * dt == (i.solarKw - b.maxChargeKw) * dt > 0.0;
    NightSolarBeyondLimit(b, e, i);
    assert Step(PriceDriven, b, dt, 0.0, i) == ChargeFirstKwh(PriceDriven, b, e, i, 0.0);
  }

  /** The same interval in kWh: `e.maxCharge` is the per-interval limit. */
  lemma NightSolarBeyondLimit(b: Battery, e: Energies, i: Interval)
    requires b.allowGridCharge && e.maxCharge > 0.0 && b.capacityKwh >= 2.0 * e.maxCharge
    requires e.load == 0.0 && e.solar > e.maxCharge && i.hour < 8 && i.tariff == Rate(i.hour)
    ensures var r := ChargeFirstKwh(PriceDriven, b, e, i, 0.0);
      && r.charged == r.gridCharged == r.imported == e.maxCharge
      && r.soc == 2.0 * e.maxCharge
      && r.exported == e.solar - e.maxCharge
  {
    var r := ChargeFirstKwh(PriceDriven, b, e, i, 0.0);
    assert r.charged == e.maxCharge;
    assert MayGridCharge(PriceDriven, b, i, e.maxCharge);
  }

  /** Load-first with 60 kWh of solar against 10 kWh of load: the 50 kWh
      surplus charges 25 kWh, stored at 0.95, and the rest is exported. */
  lemma LoadFirstStoresAtFixedFactor()
    ensures var r := Step(LoadFirst, Demo, HalfHour, 0.0, Interval(12, 20.0, 120.0, 0.15));
      r.charged == 25.0 && r.soc == 23.75 && r.exported == 25.0 && r.imported == 0.0
  {
  }

  /** Load-first with `MinSoC_kWh` at 20, 30 kWh stored, a 50 kWh deficit
      and a 25 kWh discharge limit: the battery draws the full 25 kWh and is
      left at 5 kWh, below the minimum the parameters name. */
  lemma LoadFirstIgnoresMinSoc()
    ensures var r := LoadFirstKwh(Demo.(minSocKwh := 20.0), Energies(50.0, 0.0, 25.0, 25.0), Interval(3, 100.0, 0.0, 0.08), 30.0);
      r.drawn == 25.0 && r.soc == 5.0 && r.soc < 20.0 && r.imported == 27.5
  {
    assert DischargeFor(30.0, 25.0, 0.9, 50.0) == Discharge(25.0, 22.5);
  }
}

=== FILE: results.dfy ===
/** Failure-carrying values used by the model: a dictionary lookup that may
    find nothing, and a computation that may raise one of the source's errors. */
module Results {

  datatype Option<+T> = None | Some(value: T) {

    /** The value held, or `default` when there is none (Python's `dict.get`). */
    function GetOr(default: T): T {
      match this
      case Some(v) => v
      case None => default
    }
  }

  datatype Result<+T, +E> = Ok(value: T) | Err(error: E)
}

=== FILE: simulator.dfy ===
/** The simulation loop shared by the three engines: a left-to-right fold of
    the dispatch step over the interval series, carrying only the SoC. */
module Simulator {
  import opened Energy
  import opened Dispatch
  import opened StepProperties

  /** The SoC interval `k` starts from: `soc0` for the first interval, the SoC
      the previous row recorded for every later one. */
  function SocBefore(soc0: real, rows: seq<Row>, k: int): real
    requires 0 <= k <= |rows|
  {
    if k == 0 then soc0 else rows[k - 1].soc
  }

  /** Run the policy over `xs` from SoC `soc`: one row per interval, in order,
      each computed from the SoC the previous interval left. */
  function Run(policy: Policy, b: Battery, dt: real, soc: real, xs: seq<Interval>): (rows: seq<Row>)
    ensures |rows| == |xs|
    ensures forall k :: 0 <= k < |xs| ==> rows[k] == Step(policy, b, dt, SocBefore(soc, rows, k), xs[k])
    ensures forall k :: 0 <= k < |xs| ==> Balanced(ToEnergies(b, dt, xs[k]), rows[k]) && Billed(xs[k], rows[k])
    decreases |xs|
  {
    if xs == [] then []
    else
      var first := Step(policy, b, dt, soc, xs[0]);
      var rest := Run(policy, b, dt, first.soc, xs[1..]);
      var rows := [first] + rest;
      assert rows[0] == first;
      assert forall k :: 1 <= k < |xs| ==> rows[k] == rest[k - 1] && xs[k] == xs[1..][k - 1];
      assert forall k :: 1 <= k < |xs| ==> SocBefore(soc, rows, k) == SocBefore(first.soc, rest, k - 1);
      rows
  }

  /** From a starting SoC in `[0, ceiling]`, every row's SoC stays in
      `[0, ceiling]` and no flow is negative; without grid top-up no row
      imports more than its interval's load. */
  lemma RunKeepsSocInRange(policy: Policy, b: Battery, dt: real, soc: real, xs: seq<Interval>)
    requires ValidBattery(b, dt) && AllValid(xs)
    requires 0.0 <= soc <= Ceiling(policy, b)
    ensures forall k :: 0 <= k < |xs| ==> 0.0 <= Run(policy, b, dt, soc, xs)[k].soc <= Ceiling(policy, b)
    ensures forall k :: 0 <= k < |xs| ==> NonNegativeFlows(Run(policy, b, dt, soc, xs)[k])
    ensures !(policy.PriceDriven? && b.allowGridCharge) ==>
      forall k :: 0 <= k < |xs| ==> Run(policy, b, dt, soc, xs)[k].imported <= ToEnergies(b, dt, xs[k]).load
  {
    var rows := Run(policy, b, dt, soc, xs);
    forall k | 0 <= k < |xs|
      ensures 0.0 <= rows[k].soc <= Ceiling(policy, b)
      ensures NonNegativeFlows(rows[k])
      ensures !(policy.PriceDriven? && b.allowGridCharge) ==> rows[k].imported <= ToEnergies(b, dt, xs[k]).load
    {
      SocBeforeInRange(policy, b, dt, soc, xs, rows, k);
      StepKeepsSocInRange(policy, b, dt, SocBefore(soc, rows, k), xs[k]);
    }
  }

  /** The induction behind `RunKeepsSocInRange`, over the interval index:
      every interval of a run starts from a SoC in `[0, ceiling]`. */
  lemma {:induction false} SocBeforeInRange(policy: Policy, b: Battery, dt: real, soc: real, xs: seq<Interval>, rows: seq<Row>, k: nat)
    requires ValidBattery(b, dt) && AllValid(xs)
    requires 0.0 <= soc <= Ceiling(policy, b)
    requires |rows| == |xs| && k <= |xs|
    requires forall j {:trigger xs[j]} :: 0 <= j < |xs| ==> rows[j] == Step(policy, b, dt, SocBefore(soc, rows, j), xs[j])
    ensures 0.0 <= SocBefore(soc, rows, k) <= Ceiling(policy, b)
    decreases k
  {
    if k > 0 {
      var before := SocBefore(soc, rows, k - 1);
      SocBeforeInRange(policy, b, dt, soc, xs, rows, k - 1);
      assert ValidInterval(xs[k - 1]);
      StepKeepsSocInRange(policy, b, dt, before, xs[k - 1]);
      assert rows[k - 1] == Step(policy, b, dt, before, xs[k - 1]);
    }
  }

  /** Scenario 1 over a whole series: discharge only in 17:00-23:00, no grid
      charging, never import and export in one row; from a SoC in range, an
      interval outside the window never ends with less SoC than it started with. */
  lemma FixedWindowRunGating(b: Battery, dt: real, soc: real, xs: seq<Interval>)
    requires ValidBattery(b, dt) && AllValid(xs)
    requires 0.0 <= soc <= b.capacityKwh
    ensures forall k :: 0 <= k < |xs| ==> Run(FixedWindow, b, dt, soc, xs)[k].drawn != 0.0 ==> 17 <= xs[k].hour < 23
    ensures forall k :: 0 <= k < |xs| ==> Run(FixedWindow, b, dt, soc, xs)[k].gridCharged == 0.0
    ensures forall k :: 0 <= k < |xs| ==>
      Run(FixedWindow, b, dt, soc, xs)[k].imported == 0.0 || Run(FixedWindow, b, dt, soc, xs)[k].exported == 0.0
    ensures forall k :: 0 <= k < |xs| && !(17 <= xs[k].hour < 23) ==>
      Run(FixedWindow, b, dt, soc, xs)[k].soc >= SocBefore(soc, Run(FixedWindow, b, dt, soc, xs), k)
  {
    var rows := Run(FixedWindow, b, dt, soc, xs);
    RunKeepsSocInRange(FixedWindow, b, dt, soc, xs);
    forall k | 0 <= k < |xs|
      ensures rows[k].drawn != 0.0 ==> 17 <= xs[k].hour < 23
      ensures rows[k].gridCharged == 0.0
      ensures rows[k].imported == 0.0 || rows[k].exported == 0.0
      ensures !(17 <= xs[k].hour < 23) ==> rows[k].soc >= SocBefore(soc, rows, k)
    {
      FixedWindowGating(b, dt, SocBefore(soc, rows, k), xs[k]);
    }
  }

  /** Scenario 2 over a whole series: discharge only at rates of at least 0.15,
      grid charging only when allowed and at rates of at most 0.08, never both in a row. */
  lemma PriceDrivenRunGating(b: Battery, dt: real, soc: real, xs: seq<Interval>)
    ensures forall k :: 0 <= k < |xs| ==> Run(PriceDriven, b, dt, soc, xs)[k].drawn != 0.0 ==> xs[k].tariff >= DischargeThreshold
    ensures forall k :: 0 <= k < |xs| ==> Run(PriceDriven, b, dt, soc, xs)[k].gridCharged != 0.0 ==>
      b.allowGridCharge && xs[k].tariff <= GridChargeThreshold
    ensures forall k :: 0 <= k < |xs| ==>
      Run(PriceDriven, b, dt, soc, xs)[k].drawn == 0.0 || Run(PriceDriven, b, dt, soc, xs)[k].gridCharged == 0.0
  {
    var rows := Run(PriceDriven, b, dt, soc, xs);
    forall k | 0 <= k < |xs|
      ensures rows[k].drawn != 0.0 ==> xs[k].tariff >= DischargeThreshold
      ensures rows[k].gridCharged != 0.0 ==> b.allowGridCharge && xs[k].tariff <= GridChargeThreshold
      ensures rows[k].drawn == 0.0 || rows[k].gridCharged == 0.0
    {
      PriceDrivenGating(b, dt, SocBefore(soc, rows, k), xs[k]);
    }
  }

  /** The load-first engine over a whole series: no row both charges and
      discharges, none both imports and exports, none buys grid energy into the battery. */
  lemma LoadFirstRunExclusive(b: Battery, dt: real, soc: real, xs: seq<Interval>)
    ensures forall k :: 0 <= k < |xs| ==>
      Run(LoadFirst, b, dt, soc, xs)[k].charged == 0.0 || Run(LoadFirst, b, dt, soc, xs)[k].drawn == 0.0
    ensures forall k :: 0 <= k < |xs| ==>
      Run(LoadFirst, b, dt, soc, xs)[k].imported == 0.0 || Run(LoadFirst, b, dt, soc, xs)[k].exported == 0.0
    ensures forall k :: 0 <= k < |xs| ==> Run(LoadFirst, b, dt, soc, xs)[k].gridCharged == 0.0
  {
    var rows := Run(LoadFirst, b, dt, soc, xs);
    forall k | 0 <= k < |xs|
      ensures rows[k].charged == 0.0 || rows[k].drawn == 0.0
      ensures rows[k].imported == 0.0 || rows[k].exported == 0.0
      ensures rows[k].gridCharged == 0.0
    {
      LoadFirstExclusive(b, dt, SocBefore(soc, rows, k), xs[k]);
    }
  }
}

=== FILE: step_properties.dfy ===
/** What one dispatch step guarantees, policy by policy. */
module StepProperties {
  import opened Energy
  import opened Dispatch

  /** The energies of a valid interval for a valid battery are non-negative. */
  predicate ValidEnergies(b: Battery, e: Energies) {
    b.eff > 0.0 && e.load >= 0.0 && e.solar >= 0.0 && e.maxCharge >= 0.0 && e.maxDischarge >= 0.0
  }

  /** A scenario 1 or 2 step is solar charging, then serving the load, then the grid top-up. */
  lemma ChargeFirstComposition(policy: Policy, b: Battery, dt: real, soc: real, i: Interval)
    requires !policy.LoadFirst?
    ensures var e := ToEnergies(b, dt, i);
      var c := Min3(e.solar, e.maxCharge, b.capacityKwh - soc);
      Step(policy, b, dt, soc, i) == GridTopUp(policy, b, e, i, ServeLoad(policy, b.eff, e, i, soc + c, c, e.solar - c))
  {
  }

  /** Serving the load never raises the SoC, never takes it below zero, and
      imports no more than the load. */
  lemma ServeLoadInRange(policy: Policy, b: Battery, e: Energies, i: Interval, socCharged: real, charge: real, leftover: real)
    requires ValidEnergies(b, e)
    requires socCharged >= 0.0 && charge >= 0.0 && leftover >= 0.0
    ensures 0.0 <= ServeLoad(policy, b.eff, e, i, socCharged, charge, leftover).soc <= socCharged
    ensures NonNegativeFlows(ServeLoad(policy, b.eff, e, i, socCharged, charge, leftover))
    ensures ServeLoad(policy, b.eff, e, i, socCharged, charge, leftover).imported <= e.load
  {
    if leftover < e.load && MayDischarge(policy, i, socCharged) && socCharged > 0.0 {
      var d := DischargeFor(socCharged, e.maxDischarge, b.eff, e.load - leftover);
      assert 0.0 <= d.drawn <= socCharged;
    }
  }

  lemma ChargeFirstInRange(policy: Policy, b: Battery, e: Energies, i: Interval, soc: real)
    requires !policy.LoadFirst?
    requires ValidEnergies(b, e)
    requires 0.0 <= soc <= b.capacityKwh
    ensures 0.0 <= ChargeFirstKwh(policy, b, e, i, soc).soc <= b.capacityKwh
    ensures NonNegativeFlows(ChargeFirstKwh(policy, b, e, i, soc))
    ensures !(policy.PriceDriven? && b.allowGridCharge) ==> ChargeFirstKwh(policy, b, e, i, soc).imported <= e.load
  {
    var charge := Min3(e.solar, e.maxCharge, b.capacityKwh - soc);
    ServeLoadInRange(policy, b, e, i, soc + charge, charge, e.solar - charge);
  }

  lemma LoadFirstInRange(b: Battery, e: Energies, i: Interval, soc: real)
    requires ValidEnergies(b, e)
    requires 0.0 <= soc <= b.maxSocKwh
    ensures 0.0 <= LoadFirstKwh(b, e, i, soc).soc <= b.maxSocKwh
    ensures NonNegativeFlows(LoadFirstKwh(b, e, i, soc))
    ensures LoadFirstKwh(b, e, i, soc).imported <= e.load
  {
    if e.solar < e.load {
      var d := DischargeFor(soc, e.maxDischarge, b.eff, e.load - e.solar);
      assert 0.0 <= d.drawn <= soc;
    }
  }

  /** From a SoC within `[0, ceiling]`, one step ends within it again and
      produces no negative flow; without grid top-up it imports no more than
      the interval's load. */
  lemma StepKeepsSocInRange(policy: Policy, b: Battery, dt: real, soc: real, i: Interval)
    requires ValidBattery(b, dt) && ValidInterval(i)
    requires 0.0 <= soc <= Ceiling(policy, b)
    ensures 0.0 <= Step(policy, b, dt, soc, i).soc <= Ceiling(policy, b)
    ensures NonNegativeFlows(Step(policy, b, dt, soc, i))
    ensures !(policy.PriceDriven? && b.allowGridCharge) ==> Step(policy, b, dt, soc, i).imported <= ToEnergies(b, dt, i).load
  {
    var e := ToEnergies(b, dt, i);
    if policy.LoadFirst? {
      LoadFirstInRange(b, e, i, soc);
    } else {
      ChargeFirstInRange(policy, b, e, i, soc);
    }
  }

  /** Scenario 1: the battery discharges only between 17:00 and 23:00, never
      charges from the grid, and never imports and exports together; outside
      that window its SoC does not fall. */
  lemma FixedWindowGating(b: Battery, dt: real, soc: real, i: Interval)
    ensures Step(FixedWindow, b, dt, soc, i).drawn != 0.0 ==> 17 <= i.hour < 23
    ensures Step(FixedWindow, b, dt, soc, i).gridCharged == 0.0
    ensures Step(FixedWindow, b, dt, soc, i).imported == 0.0 || Step(FixedWindow, b, dt, soc, i).exported == 0.0
    ensures ValidBattery(b, dt) && ValidInterval(i) && soc <= b.capacityKwh && !(17 <= i.hour < 23)
      ==> Step(FixedWindow, b, dt, soc, i).soc >= soc
  {
  }

  /** Scenario 2: discharge needs a rate of at least 0.15, grid charging needs
      the flag and a rate of at most 0.08, so no interval does both. */
  lemma PriceDrivenGating(b: Battery, dt: real, soc: real, i: Interval)
    ensures Step(PriceDriven, b, dt, soc, i).drawn != 0.0 ==> i.tariff >= DischargeThreshold
    ensures Step(PriceDriven, b, dt, soc, i).gridCharged != 0.0 ==> b.allowGridCharge && i.tariff <= GridChargeThreshold
    ensures Step(PriceDriven, b, dt, soc, i).drawn == 0.0 || Step(PriceDriven, b, dt, soc, i).gridCharged == 0.0
  {
  }

  /** The load-first engine never charges and discharges in one interval,
      never imports and exports together, and never buys grid energy into the battery. */
  lemma LoadFirstExclusive(b: Battery, dt: real, soc: real, i: Interval)
    ensures Step(LoadFirst, b, dt, soc, i).charged == 0.0 || Step(LoadFirst, b, dt, soc, i).drawn == 0.0
    ensures Step(LoadFirst, b, dt, soc, i).imported == 0.0 || Step(LoadFirst, b, dt, soc, i).exported == 0.0
    ensures Step(LoadFirst, b, dt, soc, i).gridCharged == 0.0
  {
  }
}

=== FILE: synthetic.dfy ===
/** The deterministic arithmetic of the synthetic data generator: how many
    rows it makes, the daily energy target, the weekend factor, rescaling a
    day profile to its target, and laying the days end to end. The random
    noise, the seasonal sine and the interpolated base shape are inputs here. */
module Synthetic {
  import opened Results
  import opened Totals

  /** Dividing the annual target by zero days is the one arithmetic error. */
  datatype GeneratorError = NoDays

  /** `Timestamp.weekday()`: 0 is Monday, 5 and 6 are the weekend. */
  type Weekday = d: int | 0 <= d < 7

  const MwhToKwh: real := 1000.0

  /** `total_intervals`: the number of rows of the generated series. */
  function IntervalCount(days: nat, perDay: nat): (n: nat)
    ensures days > 0 && perDay > 0 ==> n >= days && n >= perDay
    ensures n == 0 <==> days == 0 || perDay == 0
  {
    days * perDay
  }

  /** `daily_load_kwh`: the annual target in MWh spread evenly over the days,
      in kWh. Zero days is a division by zero. */
  function DailyLoadKwh(annualMwh: real, days: nat): (r: Result<real, GeneratorError>)
    ensures r.Err? <==> days == 0
    ensures r.Ok? ==> r.value * days as real == annualMwh * MwhToKwh
  {
    if days == 0 then Err(NoDays) else Ok(annualMwh / days as real * MwhToKwh)
  }

  /** `w_factor`: a weekday counts in full, a Saturday or Sunday by the weekend factor. */
  function WeekendFactor(weekday: Weekday, weekendFactor: real): (f: real)
    ensures weekday < 5 ==> f == 1.0
    ensures weekday >= 5 ==> f == weekendFactor
  {
    if weekday < 5 then 1.0 else weekendFactor
  }

  /** Over one week the day factors add up to five weekdays plus two weekend days. */
  lemma WeekFactorTotal(weekendFactor: real)
    ensures Sum(seq(7, d requires 0 <= d < 7 => WeekendFactor(d, weekendFactor))) == 5.0 + 2.0 * weekendFactor
  {
    var s := seq(7, d requires 0 <= d < 7 => WeekendFactor(d, weekendFactor));
    assert s == [1.0, 1.0, 1.0, 1.0, 1.0, weekendFactor, weekendFactor];
    assert s[6..][1..] == [];
    assert Sum(s[6..]) == weekendFactor;
    assert s[5..][1..] == s[6..];
    assert Sum(s[5..]) == 2.0 * weekendFactor;
    assert s[4..][1..] == s[5..];
    assert s[3..][1..] == s[4..];
    assert s[2..][1..] == s[3..];
    assert s[1..][1..] == s[2..];
    assert Sum(s[4..]) == 1.0 + 2.0 * weekendFactor;
    assert Sum(s[3..]) == 2.0 + 2.0 * weekendFactor;
    assert Sum(s[2..]) == 3.0 + 2.0 * weekendFactor;
    assert Sum(s[1..]) == 4.0 + 2.0 * weekendFactor;
  }

  /** Monday to Sunday, each day profile rescaled to the daily target and its
      day factor: the week's load totals five daily targets plus two
      weekend-weighted ones. */
  lemma WeekLoadTotal(profiles: seq<seq<real>>, dailyKwh: real, weekendFactor: real)
    requires |profiles| == 7 && forall d :: 0 <= d < 7 ==> Sum(profiles[d]) != 0.0
    ensures Sum(seq(7, d requires 0 <= d < 7 => Sum(Rescale(profiles[d], dailyKwh, WeekendFactor(d, weekendFactor)))))
         == dailyKwh * (5.0 + 2.0 * weekendFactor)
  {
    var totals := seq(7, d requires 0 <= d < 7 => Sum(Rescale(profiles[d], dailyKwh, WeekendFactor(d, weekendFactor))));
    var factors := seq(7, d requires 0 <= d < 7 => WeekendFactor(d, weekendFactor));
    forall d | 0 <= d < 7
      ensures totals[d] == factors[d] * dailyKwh
    {
    }
    SumScale(factors, dailyKwh, totals);
    WeekFactorTotal(weekendFactor);
  }

  /** `r` is `profile` multiplied through by the one factor `c`. */
  predicate Proportional(profile: seq<real>, c: real, r: seq<real>) {
    |r| == |profile| && forall k :: 0 <= k < |profile| ==> r[k] == profile[k] * c
  }

  /** `day_profile_scaled`: the profile scaled so it sums to the daily target,
      then by the day factor. The shape is kept: every entry is scaled by the
      same factor. */
  function Rescale(profile: seq<real>, dailyKwh: real, dayFactor: real): (r: seq<real>)
    requires Sum(profile) != 0.0
    ensures exists c :: Proportional(profile, c, r)
    ensures Sum(r) == dailyKwh * dayFactor
  {
    var scale := dailyKwh / Sum(profile);
    var r := seq(|profile|, k requires 0 <= k < |profile| => profile[k] * scale * dayFactor);
    assert Proportional(profile, scale * dayFactor, r);
    assert Sum(profile) * (scale * dayFactor) == dailyKwh * dayFactor;
    SumScale(profile, scale * dayFactor, r);
    r
  }

  /** A positive profile rescaled to a positive target by a positive day
      factor stays positive in every entry. */
  lemma RescaleKeepsPositive(profile: seq<real>, dailyKwh: real, dayFactor: real)
    requires |profile| > 0 && forall k :: 0 <= k < |profile| ==> profile[k] > 0.0
    requires dailyKwh > 0.0 && dayFactor > 0.0
    ensures Sum(profile) > 0.0
    ensures forall k :: 0 <= k < |profile| ==> Rescale(profile, dailyKwh, dayFactor)[k] > 0.0
  {
    SumPositive(profile);
    var total := Sum(profile);
    var r := Rescale(profile, dailyKwh, dayFactor);
    forall k | 0 <= k < |profile|
      ensures r[k] > 0.0
    {
      assert r[k] == profile[k] * (dailyKwh / total) * dayFactor;
      ShareOfTotal(profile[k], total, dailyKwh, dayFactor);
    }
  }

  /** `x * (t / s) * w * s == x * (t * w)` for a non-zero `s`, and it is
      positive when all four are. */
  lemma ShareOfTotal(x: real, s: real, t: real, w: real)
    requires s != 0.0
    ensures x * (t / s) * w * s == x * (t * w)
    ensures x > 0.0 && s > 0.0 && t > 0.0 && w > 0.0 ==> x * (t / s) * w > 0.0
  {
    var q := t / s;
    assert q * s == t;
    assert x * q * w * s == x * w * (q * s);
    if x > 0.0 && s > 0.0 && t > 0.0 && w > 0.0 {
      assert q > 0.0;
      assert x * q > 0.0;
    }
  }

  lemma {:induction false} SumPositive(a: seq<real>)
    requires |a| > 0 && forall k :: 0 <= k < |a| ==> a[k] > 0.0
    ensures Sum(a) > 0.0
    decreases |a|
  {
    if |a| > 1 {
      SumPositive(a[1..]);
    } else {
      assert a[1..] == [];
    }
  }

  /** The first row of day `d` when every day has `perDay` rows. */
  function DayOffset(d: nat, perDay: nat): nat
  {
    if d == 0 then 0 else DayOffset(d - 1, perDay) + perDay
  }

  /** Day `d` starts at row `d * perDay`. */
  lemma {:induction false} DayOffsetIsProduct(d: nat, perDay: nat)
    ensures DayOffset(d, perDay) == d * perDay
    decreases d
  {
    if d > 0 {
      DayOffsetIsProduct(d - 1, perDay);
      assert (d - 1) * perDay + perDay == d * perDay;
    }
  }

  /** Every row of an earlier day comes before the first row of a later one. */
  lemma {:induction false} EarlierDayBefore(e: nat, d: nat, perDay: nat)
    requires e < d
    ensures DayOffset(e, perDay) + perDay <= DayOffset(d, perDay)
    decreases d
  {
    if e < d - 1 {
      EarlierDayBefore(e, d - 1, perDay);
    }
  }

  /** The load column: the day profiles written one after another, each into
      the `perDay` rows starting at `d * perDay`. */
  method FillDays(profiles: seq<seq<real>>, perDay: nat) returns (load: seq<real>)
    requires forall d :: 0 <= d < |profiles| ==> |profiles[d]| == perDay
    ensures |load| == IntervalCount(|profiles|, perDay)
    ensures forall d :: 0 <= d < |profiles| ==> DayOffset(d, perDay) + perDay <= |load|
    ensures forall d, j :: 0 <= d < |profiles| && 0 <= j < perDay ==> load[DayOffset(d, perDay) + j] == profiles[d][j]
  {
    load := [];
    var idx := 0;
    for d := 0 to |profiles|
      invariant idx == DayOffset(d, perDay) == |load|
      invariant forall e :: 0 <= e < d ==> DayOffset(e, perDay) + perDay <= |load|
      invariant forall e, j :: 0 <= e < d && 0 <= j < perDay ==> load[DayOffset(e, perDay) + j] == profiles[e][j]
    {
      forall e | 0 <= e < d
        ensures DayOffset(e, perDay) + perDay <= idx
      {
        EarlierDayBefore(e, d, perDay);
      }
      load := load + profiles[d];
      idx := idx + perDay;
    }
    DayOffsetIsProduct(|profiles|, perDay);
  }
}

=== FILE: tariff.dfy ===
/** The time-of-use tariff: night 0.08, day 0.15, evening peak 0.25 per kWh,
    chosen by the hour of the interval's timestamp. */
module Tariff {
  import opened Results

  /** Hour of day of a timestamp (0..23). */
  type Hour = h: int | 0 <= h < 24

  const PeakRate: real := 0.25
  const DayRate: real := 0.15
  const NightRate: real := 0.08

  datatype Tier = OffPeak | Mid | Peak

  /** The rate charged for energy bought during `hour`. */
  function Rate(hour: Hour): (r: real)
    ensures r == PeakRate <==> 17 <= hour < 19
    ensures r == DayRate <==> (8 <= hour < 17 || 19 <= hour < 23)
    ensures r == NightRate <==> (hour < 8 || hour == 23)
  {
    if 17 <= hour < 19 then PeakRate
    else if (8 <= hour < 17) || (19 <= hour < 23) then DayRate
    else NightRate
  }

  function TierRate(t: Tier): real {
    match t
    case OffPeak => NightRate
    case Mid => DayRate
    case Peak => PeakRate
  }

  /** A half-open range of hours `[start, end)` billed at one tier. */
  datatype Band = Band(start: int, end: int, tier: Tier)

  /** The same schedule written as data, band by band through the day. */
  const Schedule: seq<Band> := [
    Band(0, 8, OffPeak),
    Band(8, 17, Mid),
    Band(17, 19, Peak),
    Band(19, 23, Mid),
    Band(23, 24, OffPeak)
  ]

  /** The tier of the first band containing `hour`, if any. */
  function TierAt(bands: seq<Band>, hour: int): (t: Option<Tier>)
    ensures t.None? <==> forall k :: 0 <= k < |bands| ==> !(bands[k].start <= hour < bands[k].end)
    decreases |bands|
  {
    if bands == [] then None
    else if bands[0].start <= hour < bands[0].end then Some(bands[0].tier)
    else TierAt(bands[1..], hour)
  }

  /** The band table covers every hour of the day, and `Rate` charges
      exactly the rate of the band the hour falls in. */
  lemma RateFollowsSchedule(hour: Hour)
    ensures TierAt(Schedule, hour).Some?
    ensures Rate(hour) == TierRate(TierAt(Schedule, hour).value)
  {
    var s1 := Schedule[1..];
    var s2 := s1[1..];
    var s3 := s2[1..];
    var s4 := s3[1..];
    assert TierAt(s4, hour) == (if 23 <= hour < 24 then Some(OffPeak) else TierAt(s4[1..], hour));
    assert TierAt(s3, hour) == (if 19 <= hour < 23 then Some(Mid) else TierAt(s4, hour));
    assert TierAt(s2, hour) == (if 17 <= hour < 19 then Some(Peak) else TierAt(s3, hour));
    assert TierAt(s1, hour) == (if 8 <= hour < 17 then Some(Mid) else TierAt(s2, hour));
  }

  /** The price-driven policy's discharge threshold (rate at least 0.15) selects
      exactly the day and peak hours 8..22. */
  lemma DischargeThresholdHours(hour: Hour)
    ensures Rate(hour) >= DayRate <==> 8 <= hour < 23
  {
  }

  /** Its grid-charge threshold (rate at most 0.08) selects exactly the night
      hours 23 and 0..7; the two sets of hours are disjoint. */
  lemma GridChargeThresholdHours(hour: Hour)
    ensures Rate(hour) <= NightRate <==> (hour < 8 || hour == 23)
    ensures !(Rate(hour) <= NightRate && Rate(hour) >= DayRate)
  {
  }
}

=== FILE: totals.dfy ===
/** Column totals: the `.sum()` the reporting code takes over an output column. */
module Totals {

  function Sum(s: seq<real>): real
    decreases |s|
  {
    if s == [] then 0.0 else s[0] + Sum(s[1..])
  }

  /** Totalling a column in two pieces and adding the totals gives the total. */
  lemma {:induction false} SumAppend(a: seq<real>, b: seq<real>)
    ensures Sum(a + b) == Sum(a) + Sum(b)
    decreases |a|
  {
    if a != [] {
      assert (a + b)[0] == a[0] && (a + b)[1..] == a[1..] + b;
      SumAppend(a[1..], b);
    } else {
      assert a + b == b;
    }
  }

  /** A column that is nowhere larger than another has no larger total. */
  lemma {:induction false} SumMonotone(a: seq<real>, b: seq<real>)
    requires |a| == |b|
    requires forall k :: 0 <= k < |a| ==> a[k] <= b[k]
    ensures Sum(a) <= Sum(b)
    decreases |a|
  {
    if a != [] {
      SumMonotone(a[1..], b[1..]);
    }
  }

  /** The total of an elementwise sum of two columns is the sum of their totals. */
  lemma {:induction false} SumPointwiseAdd(a: seq<real>, b: seq<real>, c: seq<real>)
    requires |a| == |b| == |c|
    requires forall k :: 0 <= k < |a| ==> c[k] == a[k] + b[k]
    ensures Sum(c) == Sum(a) + Sum(b)
    decreases |a|
  {
    if a != [] {
      SumPointwiseAdd(a[1..], b[1..], c[1..]);
    }
  }

  /** Scaling every entry by `f` scales the total by `f`. */
  lemma {:induction false} SumScale(a: seq<real>, f: real, c: seq<real>)
    requires |a| == |c|
    requires forall k :: 0 <= k < |a| ==> c[k] == a[k] * f
    ensures Sum(c) == Sum(a) * f
    decreases |a|
  {
    if a != [] {
      SumScale(a[1..], f, c[1..]);
    }
  }

  /** A column of non-negative entries, such as imports or costs at
      non-negative rates, has a non-negative total no smaller than any entry. */
  lemma {:induction false} SumBoundsEntries(a: seq<real>)
    requires forall k :: 0 <= k < |a| ==> 0.0 <= a[k]
    ensures 0.0 <= Sum(a)
    ensures forall k :: 0 <= k < |a| ==> a[k] <= Sum(a)
    decreases |a|
  {
    if a != [] {
      assert forall k :: 1 <= k < |a| ==> a[k] == a[1..][k - 1];
      SumBoundsEntries(a[1..]);
    }
  }
}
